=== FILE: README.md ===
# Markdown assembly of the PDF and web extraction app

`streamlitCloud_app.py` turns a PDF or a web page into a Markdown document.
There are four pipelines:

- an open-source PDF pipeline (PyMuPDF, pdfplumber, tabula);
- an enterprise PDF pipeline (Adobe PDF Services result bundles);
- an open-source website scraper (requests and BeautifulSoup);
- an enterprise website extractor (the Diffbot Article API).

Extracted images are re-hosted on S3 when credentials are configured.

Almost everything in the file is I/O. What is left is the pure code that assembles the Markdown. This project models that code in Dafny, taking each back end's results as plain datatypes, and proves what the code guarantees about the documents it writes.

Modules:

- `Wrappers`: `Option`, with `GetOr` standing for Python's `dict.get(key, default)`.
- `Text`: the Python string operations the assemblers use, written out over `seq<char>`:
  - `"".join` over document fragments (`ConcatMap`) and `sep.join` (`Join`);
  - `"-" * n`, `str(int)`, `startswith` and `endswith`;
  - `os.path.basename` and POSIX `os.path.join`;
  - `sorted` on file names (code-point order, as an insertion sort).
- `PipeTable`: the pipe-table serialiser the file writes three times. It covers:
  - the Adobe manifest tables (lines 213-218) and the xlsx sheets (228-234), both written by the `enumerate` loop;
  - the Diffbot tables (409-416), which write the header first.

  It also holds a reader for the written text, used to prove that tables round-trip.
- `S3Upload`: `upload_file_to_s3`. This covers the decision whether a client is created and an upload attempted, and the URL that comes back. What boto3's transfer did is an input.
- `LocalPdf`: `extract_images_to_md`, `extract_text_to_md`, `extract_tables_to_md` and `open_source_extract_pdf`. The three loops are methods, each proved equal to a declarative definition of its section.
- `AdobeBundle`: `adobe_zip_to_markdown`, covering the manifest elements, the `.xlsx` tables and the figures. Each figure's link comes from `S3Upload`.
- `WebScrape`: `open_source_extract_website`. This covers the `src`/`href` normalisation and the page assembly. `urljoin` and the pandas table rendering are function parameters.
- `Diffbot`: `enterprise_extract_website` after the HTTP call. The GET is a function parameter.

Each document is built as a sequence of fragments of a small datatype and then rendered by `ConcatMap`. The fragments are in the order the source appends them, so statements about order and presence are made about the fragments.

Line 210 writes a bare `##` line above each Adobe text element. The model follows the code.

## Model

| member | source | states |
|---|---|---|
| `PipeTable.DashRuns` | streamlitCloud_app.py:217 | the separator has one run per header cell; each run is only `-` and exactly as long as its header cell |
| `PipeTable.TableLines` | streamlitCloud_app.py:214-217 | every row appears, in input order, at its position; exactly one separator, directly after row 0, holding the dash runs of row 0; no lines for no rows |
| `PipeTable.AppendRows` | streamlitCloud_app.py:214-217 | the `enumerate` loop as written yields exactly the rendered table of `TableLines` |
| `PipeTable.HeaderFirstAgrees` | streamlitCloud_app.py:409-416 | Diffbot's header-first form is the same table as the `enumerate` form, plus the closing blank line |
| `PipeTable.ParseFormatRoundTrip` | streamlitCloud_app.py:215 | a row whose cells hold no `|` or newline reads back as exactly the same cells: each row is written verbatim |
| `PipeTable.RenderParseRoundTrip` | streamlitCloud_app.py:213-217 | a table of such cells reads back, from the text written, as exactly its rows in order |
| `PipeTable.BarInCellSplitsColumn` | streamlitCloud_app.py:215 | cells are not escaped: wherever a cell `a | b` stands in a row, for any `a`, `b` and any cells around it, the line is the one written for the two cells `a` and `b` in its place |
| `PipeTable.EmptyRowLooksLikeEmptyCell` | streamlitCloud_app.py:215 | an empty row and a row with one empty cell print the same line |
| `S3Upload.UploadFile` | streamlitCloud_app.py:256-286 | no client is created iff bucket, key or secret is empty; the client gets the configured region or `us-east-1`; a URL comes back iff configured and the transfer succeeded; the URL is exactly `https://<bucket>.s3.amazonaws.com/` followed by the file's basename: it starts with the one, ends with the other, and is exactly as long as the two together |
| `S3Upload.UrlIgnoresRegion` | streamlitCloud_app.py:261-278 | the region never affects the returned URL |
| `S3Upload.UrlNeverEmpty` | streamlitCloud_app.py:278 | a returned URL is never `""`, so the callers' `if s3_url:` holds iff configured and the transfer succeeded |
| `S3Upload.ObjectKeyIsLastSegment` | streamlitCloud_app.py:271-278 | the last path segment of the URL is the basename of the uploaded file |
| `S3Upload.SameBasenameSameObject` | streamlitCloud_app.py:271-278 | two files with the same basename go to the same object, whatever their directories |
| `Text.SortBy` | streamlitCloud_app.py:223 | `sorted` returns a permutation of the listing in ascending code-point order |
| `Text.BasenameOfJoin` | streamlitCloud_app.py:241 | joining a plain file name onto a directory keeps that name as the basename |
| `Text.IntToStringRoundTrip` | streamlitCloud_app.py:230 | `str` of an int reads back as the same int |
| `Text.NatToStringInjective` | streamlitCloud_app.py:80-85 | distinct page, image and table numbers print differently |
| `LocalPdf.ImageLines` | streamlitCloud_app.py:56-85 | there are exactly as many image lines as images on all pages |
| `LocalPdf.ImagePosition` | streamlitCloud_app.py:56-85 | image `i` of page `p` has its line after every image of earlier pages and the earlier images of its page, numbered page `p+1`, index `i+1`, with that image's upload result |
| `LocalPdf.ExtractImagesToMd` | streamlitCloud_app.py:54-88 | the nested loops as written yield the Images heading followed by the image lines in that order |
| `LocalPdf.UnconfiguredImagesAllWarn` | streamlitCloud_app.py:72-85 | without S3 settings no client is created and every image's line is the warning |
| `LocalPdf.ExtractTextToMd` | streamlitCloud_app.py:93-98 | the loop as written yields one `### Page n` block per page, in page order, with missing text as `""` |
| `LocalPdf.PageTextVerbatim` | streamlitCloud_app.py:97 | the text between the fences of a page block is the page's text, unaltered |
| `LocalPdf.FirstFailure` | streamlitCloud_app.py:105-110 | the position where the table loop stops: every earlier table rendered, and the table there raised, unless it is the end |
| `LocalPdf.ExtractTablesToMd` | streamlitCloud_app.py:100-111 | a read failure gives only the failure line; otherwise every table before the first rendering failure gets its numbered block, and that table's heading is followed by the failure line, never an exception |
| `LocalPdf.OpenSourceExtractPdf` | streamlitCloud_app.py:113-119 | the document is the title line, then the Images, Text and Tables sections, in that order |
| `LocalPdf.EmptyDocumentSections` | streamlitCloud_app.py:113-119 | a PDF without images or tables gives the title, the bare Images heading, the Text section and the bare Tables heading |
| `AdobeBundle.StripZip` | streamlitCloud_app.py:192 | `.replace(".zip", "")` never lengthens the path and leaves a path without dots alone |
| `AdobeBundle.StripZipRemoves` | streamlitCloud_app.py:192 | a `.zip` after a dot-free stretch is removed wherever it occurs, not only as a suffix |
| `AdobeBundle.StripZipSuffix` | streamlitCloud_app.py:184-192 | a ZIP path named like `create_adobe_zip_path`'s, with its only dot at `.zip`, extracts next to itself minus the suffix |
| `AdobeBundle.ElementFragments` | streamlitCloud_app.py:209-218 | an element gives a text block iff it has `Text` and a table block iff it has `Table`, the text block first; a table without `Rows` is empty |
| `AdobeBundle.ElementsInOrder` | streamlitCloud_app.py:208 | elements contribute in manifest order |
| `AdobeBundle.BareElementIgnored` | streamlitCloud_app.py:208-211 | an element with neither key contributes nothing |
| `AdobeBundle.ManifestTableRoundTrip` | streamlitCloud_app.py:211-218 | a manifest table block is the `## Table Element` line, then a pipe table that reads back as the same rows, then a blank line |
| `AdobeBundle.CellText` | streamlitCloud_app.py:230 | a cell prints as `""` iff it is falsy (`None`, `""`, `0`, `False`); strings print as themselves, and ints print so that they read back |
| `AdobeBundle.SheetTableRoundTrip` | streamlitCloud_app.py:227-233 | a workbook whose cell texts hold no `|` or line break reads back from its `## Table from <name>` block with the sheet's shape, an empty cell exactly where the value is falsy, and string values verbatim |
| `AdobeBundle.WorkbooksOnly` | streamlitCloud_app.py:224 | exactly the entries whose name ends in `.xlsx` are kept |
| `AdobeBundle.WorkbooksOnlyAppend` | streamlitCloud_app.py:222-224 | the kept entries stay in listed order: filtering a split listing gives the split results |
| `AdobeBundle.WorkbookAt` | streamlitCloud_app.py:222-224 | every `.xlsx` entry is kept, at the position given by the number of `.xlsx` entries listed before it |
| `AdobeBundle.WorkbooksOnlyCounts` | streamlitCloud_app.py:222-224 | each `.xlsx` entry is kept exactly as often as it is listed, and nothing else is kept |
| `AdobeBundle.WorkbooksOnlySorted` | streamlitCloud_app.py:223-224 | filtering a sorted listing keeps it sorted |
| `AdobeBundle.WorkbooksListed` | streamlitCloud_app.py:221-224 | the selected workbooks are exactly the `.xlsx` entries of an existing `tables/` folder, each as often as it is listed, in ascending name order; none when the folder is missing |
| `AdobeBundle.SheetAt` | streamlitCloud_app.py:219-233 | selected workbook `k` is written in the document right after the manifest elements' blocks and the `k` workbooks before it, as a `## Table from <name>` table of its cells' texts |
| `AdobeBundle.SheetFragments` | streamlitCloud_app.py:221-233 | the workbook part holds one block per selected workbook and nothing else |
| `AdobeBundle.FigureLinks` | streamlitCloud_app.py:240-247 | only figure links, at most one per entry |
| `AdobeBundle.FigureLinksAppend` | streamlitCloud_app.py:240 | figure links keep the listed order |
| `AdobeBundle.FigureLinkAt` | streamlitCloud_app.py:240-247 | every regular file gets its link, right after the links of the regular files before it; a directory adds none |
| `AdobeBundle.FigureFallsBackToLocal` | streamlitCloud_app.py:243-247 | unless S3 is configured and the transfer went through, the figure links its extracted path |
| `AdobeBundle.FigureLinksToS3` | streamlitCloud_app.py:243-245 | a figure uploaded under S3 settings links `https://<bucket>.s3.amazonaws.com/` plus the basename of its path, which is its file name when that name holds no `/` |
| `AdobeBundle.FigureFragments` | streamlitCloud_app.py:237-247 | the `## Images` heading comes first iff the `figures/` folder exists, even when it holds no file, and after it come only the links of the name-sorted listing |
| `AdobeBundle.FigureAt` | streamlitCloud_app.py:235-247 | with a `figures/` folder, its heading follows the elements and workbooks; the listing is sorted by name, and each regular file in it is linked in the document right after the links of the regular files sorted before it |
| `AdobeBundle.FigureKeepsName` | streamlitCloud_app.py:241-247 | whether the upload succeeds or falls back to the local path, the link ends in the figure's own file name |
| `AdobeBundle.UnconfiguredFiguresAreLocal` | streamlitCloud_app.py:243-247 | without S3 settings every regular file links its extracted local path, and directories are skipped |
| `AdobeBundle.AdobeZipToMarkdown` | streamlitCloud_app.py:198-205 | `None` (the `FileNotFoundError`) iff the manifest is missing; otherwise the document starts with `# Extracted PDF Data (Enterprise)` |
| `AdobeBundle.AdobeSections` | streamlitCloud_app.py:205-249 | the document is the heading, then the manifest elements, the workbook tables and the figures, in that order |
| `AdobeBundle.EmptyBundle` | streamlitCloud_app.py:205-238 | with no elements and neither folder, the document is the heading alone |
| `Diffbot.Endpoint` | streamlitCloud_app.py:380 | the request URL is exactly the Article API, `?token=`, the token, `&url=` and the page URL, unescaped: it starts with the one part, ends with the URL, and is as long as both together |
| `Diffbot.ImageLinkAt` | streamlitCloud_app.py:399-404 | with a non-empty `images`, the `## Images` heading follows the object's text and image `k` is the `k`-th link after it; the caption is `Image` and the URL `""` only when the key is absent |
| `Diffbot.TablePieces` | streamlitCloud_app.py:408-416 | only tables with rows are written, at most one per table |
| `Diffbot.TablePieceAt` | streamlitCloud_app.py:408-416 | every table with rows is written, right after the tables with rows before it |
| `Diffbot.TablePiecesAppend` | streamlitCloud_app.py:408 | tables keep their order |
| `Diffbot.EmptyTableSkipped` | streamlitCloud_app.py:409-410 | a table with missing or empty `rows` contributes nothing, wherever it stands |
| `Diffbot.ObjectPieces` | streamlitCloud_app.py:390-416 | each object starts with its title (`Untitled` when absent) and text; `## Images` appears iff it has images and `## Tables` iff it has tables; nothing is written beyond the title, the text, the Images part (heading and one link per image) and the Tables part (heading and the tables with rows) |
| `Diffbot.ObjectTableAt` | streamlitCloud_app.py:406-416 | with non-empty `tables`, `## Tables` follows the text and the Images part, and every table with rows is written after it, right after the earlier tables with rows |
| `Diffbot.ObjectsPiecesAppend` | streamlitCloud_app.py:390 | objects contribute in reply order |
| `Diffbot.OneObjectPieces` | streamlitCloud_app.py:390-416 | a reply with one object writes exactly that object's pieces |
| `Diffbot.OneTitlePerObject` | streamlitCloud_app.py:390-397 | the document has exactly one title per object |
| `Diffbot.EnterpriseExtractWebsite` | streamlitCloud_app.py:375-418 | `None` iff the token is empty, the status is not 200 or there are no objects; any other result starts with `# ` |
| `Diffbot.OnlyEndpointQueried` | streamlitCloud_app.py:380-386 | the result depends on the reply to the one endpoint only |
| `Diffbot.TableLikeOthers` | streamlitCloud_app.py:409-416 | a Diffbot table is the same pipe table the other extractors write, then a blank line |
| `WebScrape.NormalizeSrc` | streamlitCloud_app.py:311-316 | an absolute source is kept; a `//` source becomes exactly `https:` followed by the source, which is absolute; anything else goes to `urljoin` |
| `WebScrape.NormalizeHref` | streamlitCloud_app.py:322-325 | an absolute target is kept; anything else, `//` included, goes to `urljoin` |
| `WebScrape.ProtocolRelativeNotAbsolute` | streamlitCloud_app.py:312-314 | a `//` source never counts as absolute, so its branch is reachable |
| `WebScrape.NormalizeSrcIdempotent` | streamlitCloud_app.py:311-315 | given an absolute `urljoin` result, the normalised source is absolute and normalising again changes nothing |
| `WebScrape.NormalizeHrefIdempotent` | streamlitCloud_app.py:322-324 | the same for link targets |
| `WebScrape.ProtocolRelativeImageVersusLink` | streamlitCloud_app.py:312-324 | the same `//` address becomes `https:` as an image but is resolved by `urljoin` as a link |
| `WebScrape.ImageUrls` | streamlitCloud_app.py:309-316 | at most one URL per `img` tag |
| `WebScrape.ImageUrlAt` | streamlitCloud_app.py:309-316 | every `img` with `src` contributes its normalised source, right after the sources of the tags before it |
| `WebScrape.ImageUrlsAppend` | streamlitCloud_app.py:309 | image URLs keep document order |
| `WebScrape.ImageWithoutSrcDropped` | streamlitCloud_app.py:310 | an `img` without `src` contributes nothing |
| `WebScrape.ImageUrlsAbsolute` | streamlitCloud_app.py:309-316 | when `urljoin` resolves each of this page's relative sources to an absolute URL, every image URL is absolute |
| `WebScrape.LinkAt` | streamlitCloud_app.py:349-356 | the `## Links` heading follows the image entries, and link `k` is the `k`-th entry after it, holding the normalised `href` |
| `WebScrape.LinkUrlsAbsolute` | streamlitCloud_app.py:321-325 | when `urljoin` resolves each relative link target to an absolute URL, every link is absolute |
| `WebScrape.KeptTables` | streamlitCloud_app.py:330-342 | only tables with at least one row are kept |
| `WebScrape.KeptTableAt` | streamlitCloud_app.py:330-342 | every table with a row is kept, right after the tables with rows before it |
| `WebScrape.EmptyTableSkipped` | streamlitCloud_app.py:336 | a table without rows is neither written nor numbered |
| `WebScrape.TableAt` | streamlitCloud_app.py:358-361 | a table with rows is written after the `## Tables` heading and numbered one more than the tables with rows before it, so empty tables take no number |
| `WebScrape.OpenSourceExtractWebsite` | streamlitCloud_app.py:298-363 | `None` iff `raise_for_status` raises (status 400-599); otherwise the document starts with `# Extracted Content from <url>` |
| `WebScrape.WebPieces` | streamlitCloud_app.py:344-361 | the page document has exactly six heading and text pieces plus one entry per image URL, per link and per kept table: nothing else is written |
| `WebScrape.TextAndImageAt` | streamlitCloud_app.py:303-351 | the document opens with the title for the page URL, the paragraph texts joined by line breaks, then `## Images`, and image URL `k` is the `k`-th entry after it |
| `WebScrape.EmptyPageSkeleton` | streamlitCloud_app.py:344-358 | an empty page still gets the title and every section heading, in order, with an empty text |

## Left out

- I/O is left out: the Streamlit UI and `main`, secrets lookup, temporary files, logging, the Adobe SDK job, ZIP download and extraction, and the HTTP requests. Their results are inputs: datatypes, or function parameters for `urljoin`, the Diffbot GET and pandas' `to_markdown`.
- `create_adobe_zip_path`: it reads the clock. Only the shape of the path it builds appears, as the precondition of `AdobeBundle.StripZipSuffix`.
- PyMuPDF, pdfplumber, tabula, openpyxl and BeautifulSoup are foreign libraries. What they return is an input. The only raises modelled are the table errors the code catches (`ReadFailed`, `RenderFailed`); an uncaught raise from `fitz.open`, pdfplumber, openpyxl or BeautifulSoup is left out.
- pandas: `DataFrame.to_markdown` at lines 107 and 361 is a string input or a function parameter. The DataFrame construction and the header promotion at lines 337-341 sit inside that parameter.
- `WebScrape.OpenSourceExtractWebsite`: a raise from the DataFrame step or from `to_markdown` (lines 337-341 and 361) ends the function, but the `toMarkdown` parameter is total, so the model returns a document there. The rendering outcome is not an input on this path, unlike the local PDF path's `RenderFailed`.
- `urllib.parse.urljoin` is an uninterpreted function parameter.
- JSON values that are not strings are not modelled: a `Text`, `title`, `caption` or cell given as a number, `null` or a list is outside the datatypes. Floats and dates in xlsx cells are left out the same way; integers, strings and booleans are modelled.
- `resp.json()` failing on a non-JSON Diffbot reply is left out.
- An `.xlsx` entry that is not a loadable workbook is left out: openpyxl raises, and nothing in the function catches it.
- `pdf-frontend-streamlit/streamlit_app.py` is not part of this model: it is an HTTP client and UI with no Markdown logic.
- `WebScrape.ImageUrls`: its own contract bounds the count only. Order is stated by `WebScrape.ImageUrlsAppend`, and that every tag with `src` contributes its URL by `WebScrape.ImageUrlAt`.
- `WebScrape.KeptTables`: its own contract says only that kept tables have rows. Order is stated by `WebScrape.KeptTablesAppend`, and that every table with rows is kept by `WebScrape.KeptTableAt`.
- `Diffbot.TablePieces`: its own contract bounds the count only. Order is stated by `Diffbot.TablePiecesAppend`, and that every table with rows is written by `Diffbot.TablePieceAt`.
- `AdobeBundle.FigureLinks`: its own contract bounds the count only. Order is stated by `AdobeBundle.FigureLinksAppend`, and that every regular file is linked by `AdobeBundle.FigureLinkAt`.
- `AdobeBundle.WorkbooksOnly`: its own contract states membership only. Order is stated by `AdobeBundle.WorkbooksOnlyAppend` and `AdobeBundle.WorkbookAt`, multiplicity by `AdobeBundle.WorkbooksOnlyCounts`.
- `AdobeBundle.StripZip`: its contract says nothing about paths that contain dots. Removal of each occurrence is stated by `AdobeBundle.StripZipRemoves`, for the stretch before a `.zip` that contains no dot.

=== FILE: adobe_bundle.dfy ===
/**
 `adobe_zip_to_markdown` (streamlitCloud_app.py:190-249): the Markdown built
 from what Adobe PDF Services put in its result ZIP. The extracted directory
 is an input: the manifest `structuredData.json` as parsed JSON (absent when
 the ZIP did not hold it), the listing of `tables/` with each workbook's active
 sheet, and the listing of `figures/` with what each figure's S3 transfer did.
 */
module AdobeBundle {
  import opened Wrappers
  import opened Text
  import opened S3Upload
  import PipeTable

  /** The `Table` object of a manifest element; `Rows` may be missing. */
  datatype AdobeTable = AdobeTable(rows: Option<seq<seq<string>>>)

  /** A manifest element: the `Text` and `Table` keys, each present or not. */
  datatype AdobeElement = AdobeElement(text: Option<string>, table: Option<AdobeTable>)

  /** `structuredData.json`; its `elements` key may be missing. */
  datatype Manifest = Manifest(elements: Option<seq<AdobeElement>>)

  /** A cell value `openpyxl` returns with `values_only=True`. */
  datatype XlsxCell = Blank | Str(s: string) | Number(n: int) | Flag(b: bool)

  /** An entry of `tables/` and the rows of its workbook's active sheet. */
  datatype TableFile = TableFile(name: string, sheet: seq<seq<XlsxCell>>)

  /** An entry of `figures/`: whether it is a regular file, and what its upload did. */
  datatype FigureFile = FigureFile(name: string, isFile: bool, transfer: TransferOutcome)

  /** The extracted ZIP: where it was, and the manifest and folders found in it. */
  datatype AdobeExtract = AdobeExtract(
    zipPath: string,
    manifest: Option<Manifest>,
    tablesFolder: Option<seq<TableFile>>,
    figuresFolder: Option<seq<FigureFile>>)

  /** One piece of the document, in the order the function appends them. */
  datatype Fragment =
    | TextBlock(text: string)
    | TableElement(rows: seq<seq<string>>)
    | SheetTable(name: string, rows: seq<seq<string>>)
    | ImagesHeader
    | Figure(target: string)

  const DocumentHeading := "# Extracted PDF Data (Enterprise)\n\n"

  /**
   The Markdown of one fragment. A text element gets a bare `##` line above
   it (line 210); both kinds of table are pipe tables followed by a blank line.
   */
  function ShowFragment(f: Fragment): string
  {
    match f
    case TextBlock(text) => "##\n" + text + "\n\n"
    case TableElement(rows) => "## Table Element\n" + PipeTable.Render(rows) + "\n"
    case SheetTable(name, rows) => "## Table from " + name + "\n" + PipeTable.Render(rows) + "\n"
    case ImagesHeader => "## Images\n\n"
    case Figure(target) => "![Figure](" + target + ")\n\n"
  }

  // ---------------------------------------------------------------------------
  // The extraction directory (lines 192, 220, 236)
  // ---------------------------------------------------------------------------

  /** The path with every occurrence of `.zip` removed, scanning left to right without overlaps. */
  function StripZip(s: string): (r: string)
    ensures |r| <= |s|
    ensures '.' !in s ==> r == s
  {
    if |s| == 0 then ""
    else if StartsWith(s, ".zip") then
      assert s[0] == s[..4][0] == '.';
      StripZip(s[4..])
    else [s[0]] + StripZip(s[1..])
  }

  lemma StripZipAtFront(b: string)
    ensures StripZip(".zip" + b) == StripZip(b)
  {
    var s := ".zip" + b;
    assert s[..4] == ".zip";
    assert s[4..] == b;
  }

  lemma StripZipKeeps(c: char, t: string)
    requires c != '.'
    ensures StripZip([c] + t) == [c] + StripZip(t)
  {
    var s := [c] + t;
    assert s[0] == c;
    assert s[1..] == t;
  }

  /** A stretch without dots cannot hold `.zip` and passes through unchanged. */
  lemma {:induction false} StripZipDotFree(a: string, rest: string)
    requires '.' !in a
    ensures StripZip(a + rest) == a + StripZip(rest)
  {
    if |a| > 0 {
      var t := a[1..] + rest;
      assert a + rest == [a[0]] + t;
      StripZipKeeps(a[0], t);
      StripZipDotFree(a[1..], rest);
      AppendAssoc([a[0]], a[1..], StripZip(rest));
      assert [a[0]] + a[1..] == a;
    } else {
      assert a + rest == rest;
    }
  }

  /** A `.zip` after a dot-free stretch goes, and the stretch stays: `.replace` strips every occurrence. */
  lemma StripZipRemoves(a: string, b: string)
    requires '.' !in a
    ensures StripZip(a + ".zip" + b) == a + StripZip(b)
  {
    AppendAssoc(a, ".zip", b);
    StripZipDotFree(a, ".zip" + b);
    StripZipAtFront(b);
  }

  /** A ZIP path whose only dot starts the `.zip` suffix extracts next to itself, minus the suffix. */
  lemma StripZipSuffix(base: string)
    requires '.' !in base
    ensures StripZip(base + ".zip") == base
  {
    StripZipRemoves(base, "");
    assert base + ".zip" + "" == base + ".zip";
  }

  function FiguresDir(zipPath: string): string
  {
    PathJoin(StripZip(zipPath), "figures")
  }

  // ---------------------------------------------------------------------------
  // Manifest elements (lines 207-217)
  // ---------------------------------------------------------------------------

  /** An element's text block, then its table block (with no `Rows`, an empty table). */
  function ElementFragments(e: AdobeElement): (r: seq<Fragment>)
    ensures |r| == (if e.text.Some? then 1 else 0) + (if e.table.Some? then 1 else 0)
    ensures e.text.Some? ==> r[0] == TextBlock(e.text.value)
    ensures e.table.Some? ==> r[|r| - 1] == TableElement(e.table.value.rows.GetOr([]))
  {
    (if e.text.Some? then [TextBlock(e.text.value)] else [])
    + (if e.table.Some? then [TableElement(e.table.value.rows.GetOr([]))] else [])
  }

  function ElementsFragments(elements: seq<AdobeElement>): seq<Fragment>
  {
    if |elements| == 0 then []
    else ElementFragments(elements[0]) + ElementsFragments(elements[1..])
  }

  /** The elements contribute in manifest order: the fragments of a split list are the split fragments. */
  lemma {:induction false} ElementsInOrder(a: seq<AdobeElement>, b: seq<AdobeElement>)
    ensures ElementsFragments(a + b) == ElementsFragments(a) + ElementsFragments(b)
  {
    if |a| == 0 {
      assert a + b == b;
    } else {
      assert (a + b)[1..] == a[1..] + b;
      ElementsInOrder(a[1..], b);
    }
  }

  /** An element with neither `Text` nor `Table` leaves no trace. */
  lemma {:induction false} BareElementIgnored(a: seq<AdobeElement>, b: seq<AdobeElement>)
    ensures ElementsFragments(a + [AdobeElement(None, None)] + b) == ElementsFragments(a + b)
  {
    ElementsInOrder(a + [AdobeElement(None, None)], b);
    ElementsInOrder(a, [AdobeElement(None, None)]);
    ElementsInOrder(a, b);
    assert ElementsFragments([AdobeElement(None, None)]) == [];
  }

  /**
   A manifest table of plain cells reads back from its block: after the
   `## Table Element` line comes a pipe table that parses to the same rows,
   then the blank line.
   */
  lemma ManifestTableRoundTrip(rows: seq<seq<string>>)
    requires PipeTable.PlainTable(rows)
    ensures var block := ShowFragment(TableElement(rows));
            var heading := "## Table Element\n";
            StartsWith(block, heading) && |heading| + 1 <= |block|
            && PipeTable.ParseTable(block[|heading|..|block| - 1]) == Some(rows)
  {
    var heading := "## Table Element\n";
    var block := ShowFragment(TableElement(rows));
    assert block == heading + PipeTable.Render(rows) + "\n";
    assert block[|heading|..|block| - 1] == PipeTable.Render(rows);
    PipeTable.RenderParseRoundTrip(rows);
  }

  // ---------------------------------------------------------------------------
  // Workbook tables (lines 219-233)
  // ---------------------------------------------------------------------------

  /** Python's truth value of a cell: `None`, `""`, `0` and `False` are false. */
  predicate Falsy(cell: XlsxCell)
  {
    match cell
    case Blank => true
    case Str(s) => s == ""
    case Number(n) => n == 0
    case Flag(b) => !b
  }

  /** A cell's text in the table: Python's string form of a truthy value, and the empty string for a falsy one. */
  function CellText(cell: XlsxCell): (r: string)
    ensures r == "" <==> Falsy(cell)
    ensures cell.Str? ==> r == cell.s
    ensures cell.Number? && cell.n != 0 ==> IntLiteral(r) && ParseInt(r) == cell.n
  {
    match cell
    case Blank => ""
    case Str(s) => s
    case Number(n) =>
      if n == 0 then "" else
        IntToStringRoundTrip(n);
        IntToString(n)
    case Flag(b) => if b then "True" else ""
  }

  /** The sheet as the strings written into the pipe table, row by row and cell by cell. */
  function SheetText(sheet: seq<seq<XlsxCell>>): seq<seq<string>>
  {
    seq(|sheet|, i requires 0 <= i < |sheet| => seq(|sheet[i]|, j requires 0 <= j < |sheet[i]| => CellText(sheet[i][j])))
  }

  /**
   A workbook whose cell texts hold no `|` or line break reads back from its
   block: after the `## Table from <name>` line comes a pipe table that parses
   to the sheet's shape, with an empty cell exactly where the sheet's value is
   falsy and every string value verbatim.
   */
  lemma SheetTableRoundTrip(name: string, sheet: seq<seq<XlsxCell>>)
    requires forall i :: 0 <= i < |sheet| ==> |sheet[i]| >= 1
    requires forall i, j :: 0 <= i < |sheet| && 0 <= j < |sheet[i]| ==> PipeTable.PlainCell(CellText(sheet[i][j]))
    ensures var block := ShowFragment(SheetTable(name, SheetText(sheet)));
            var heading := "## Table from " + name + "\n";
            StartsWith(block, heading) && |heading| + 1 <= |block|
            && var parsed := PipeTable.ParseTable(block[|heading|..|block| - 1]);
               parsed.Some? && |parsed.value| == |sheet|
               && (forall i :: 0 <= i < |sheet| ==> |parsed.value[i]| == |sheet[i]|)
               && (forall i, j :: 0 <= i < |sheet| && 0 <= j < |sheet[i]| ==>
                     (parsed.value[i][j] == "" <==> Falsy(sheet[i][j]))
                     && (sheet[i][j].Str? ==> parsed.value[i][j] == sheet[i][j].s))
  {
    var rows := SheetText(sheet);
    assert PipeTable.PlainTable(rows) by {
      forall k | 0 <= k < |rows|
        ensures |rows[k]| >= 1 && forall c :: c in rows[k] ==> PipeTable.PlainCell(c)
      {
        forall c | c in rows[k]
          ensures PipeTable.PlainCell(c)
        {
          var j :| 0 <= j < |rows[k]| && rows[k][j] == c;
          assert c == CellText(sheet[k][j]);
        }
      }
    }
    var heading := "## Table from " + name + "\n";
    var block := ShowFragment(SheetTable(name, rows));
    assert block == heading + PipeTable.Render(rows) + "\n";
    assert block[|heading|..|block| - 1] == PipeTable.Render(rows);
    PipeTable.RenderParseRoundTrip(rows);
  }

  function TableName(f: TableFile): string
  {
    f.name
  }

  /** The entries whose name ends in `.xlsx`, in their listed order. */
  function WorkbooksOnly(files: seq<TableFile>): (r: seq<TableFile>)
    ensures |r| <= |files|
    ensures forall k :: 0 <= k < |r| ==> EndsWith(r[k].name, ".xlsx")
    ensures forall f :: f in r <==> f in files && EndsWith(f.name, ".xlsx")
  {
    if |files| == 0 then []
    else if EndsWith(files[0].name, ".xlsx") then [files[0]] + WorkbooksOnly(files[1..])
    else WorkbooksOnly(files[1..])
  }

  /** Each `.xlsx` entry is kept exactly as often as it is listed, and nothing else is kept. */
  lemma {:induction false} WorkbooksOnlyCounts(files: seq<TableFile>)
    ensures forall f :: multiset(WorkbooksOnly(files))[f] == if EndsWith(f.name, ".xlsx") then multiset(files)[f] else 0
  {
    if |files| > 0 {
      WorkbooksOnlyCounts(files[1..]);
      assert files == [files[0]] + files[1..];
    }
  }

  /** The filter keeps the listed order: the workbooks of a split listing are the split workbooks. */
  lemma {:induction false} WorkbooksOnlyAppend(a: seq<TableFile>, b: seq<TableFile>)
    ensures WorkbooksOnly(a + b) == WorkbooksOnly(a) + WorkbooksOnly(b)
  {
    if |a| == 0 {
      assert a + b == b;
    } else {
      assert (a + b)[1..] == a[1..] + b;
      WorkbooksOnlyAppend(a[1..], b);
    }
  }

  /**
   Every `.xlsx` entry is kept, right after the workbooks listed before it:
   its place among the workbooks is the number of workbooks ahead of it.
   */
  lemma WorkbookAt(files: seq<TableFile>, i: nat)
    requires i < |files| && EndsWith(files[i].name, ".xlsx")
    ensures |WorkbooksOnly(files[..i])| < |WorkbooksOnly(files)|
    ensures WorkbooksOnly(files)[|WorkbooksOnly(files[..i])|] == files[i]
  {
    assert files == files[..i] + [files[i]] + files[i + 1..];
    WorkbooksOnlyAppend(files[..i] + [files[i]], files[i + 1..]);
    WorkbooksOnlyAppend(files[..i], [files[i]]);
    assert WorkbooksOnly([files[i]]) == [files[i]];
  }

  /** Filtering a sorted listing keeps it sorted. */
  lemma {:induction false} WorkbooksOnlySorted(files: seq<TableFile>)
    requires SortedBy(files, TableName)
    ensures SortedBy(WorkbooksOnly(files), TableName)
  {
    if |files| > 0 {
      var rest := files[1..];
      assert SortedBy(rest, TableName) by {
        forall k | 0 <= k < |rest| - 1
          ensures LexLessEq(TableName(rest[k]), TableName(rest[k + 1]))
        {
          assert rest[k] == files[k + 1] && rest[k + 1] == files[k + 2];
        }
      }
      WorkbooksOnlySorted(rest);
      var tail := WorkbooksOnly(rest);
      if EndsWith(files[0].name, ".xlsx") && |tail| > 0 {
        assert tail[0] in rest;
        var k :| 0 <= k < |rest| && rest[k] == tail[0];
        HeadIsLeast(files, TableName, k + 1);
        var r := [files[0]] + tail;
        forall m | 0 <= m < |r| - 1
          ensures LexLessEq(TableName(r[m]), TableName(r[m + 1]))
        {
          if m > 0 {
            assert r[m] == tail[m - 1] && r[m + 1] == tail[m];
          }
        }
      }
    }
  }

  /** The workbooks of `tables/`, in ascending name order. */
  function Workbooks(folder: Option<seq<TableFile>>): seq<TableFile>
  {
    match folder
    case None => []
    case Some(files) => WorkbooksOnly(SortBy(files, TableName))
  }

  /**
   Which workbooks appear, and in what order: exactly the `.xlsx` entries of an
   existing `tables/` folder, each once, by ascending name.
   */
  lemma WorkbooksListed(folder: Option<seq<TableFile>>)
    ensures folder.None? ==> Workbooks(folder) == []
    ensures folder.Some? ==> forall f :: f in Workbooks(folder) <==> f in folder.value && EndsWith(f.name, ".xlsx")
    ensures folder.Some? ==> forall f :: multiset(Workbooks(folder))[f] == if EndsWith(f.name, ".xlsx") then multiset(folder.value)[f] else 0
    ensures SortedBy(Workbooks(folder), TableName)
  {
    if folder.Some? {
      var sorted := SortBy(folder.value, TableName);
      assert multiset(sorted) == multiset(folder.value);
      WorkbooksOnlyCounts(sorted);
      forall f
        ensures f in sorted <==> f in folder.value
      {
        assert f in sorted <==> f in multiset(sorted);
      }
      WorkbooksOnlySorted(sorted);
    }
  }

  /** One block per selected workbook and nothing else. */
  function SheetFragments(folder: Option<seq<TableFile>>): (r: seq<Fragment>)
    ensures |r| == |Workbooks(folder)|
  {
    SheetBlocks(Workbooks(folder))
  }

  /** The block of each workbook, under its name, in the given order. */
  function SheetBlocks(books: seq<TableFile>): seq<Fragment>
  {
    seq(|books|, k requires 0 <= k < |books| => SheetTable(books[k].name, SheetText(books[k].sheet)))
  }

  lemma SheetBlockAt(books: seq<TableFile>, k: nat)
    requires k < |books|
    ensures |SheetBlocks(books)| == |books|
    ensures SheetBlocks(books)[k] == SheetTable(books[k].name, SheetText(books[k].sheet))
  {
  }

  // ---------------------------------------------------------------------------
  // Figures (lines 235-247)
  // ---------------------------------------------------------------------------

  function FigureName(f: FigureFile): string
  {
    f.name
  }

  /** Where a figure's link points: its S3 URL when the upload returned one, its extracted path otherwise. */
  function FigureTarget(cfg: S3Config, dir: string, f: FigureFile): string
  {
    var path := PathJoin(dir, f.name);
    var url := UploadFile(cfg, path, f.transfer).url;
    if HasUrl(url) then url.value else path
  }

  /** One `![Figure](...)` per regular file, in listing order; directories are skipped. */
  function FigureLinks(cfg: S3Config, dir: string, files: seq<FigureFile>): (r: seq<Fragment>)
    ensures |r| <= |files|
    ensures forall k :: 0 <= k < |r| ==> r[k].Figure?
  {
    if |files| == 0 then []
    else
      (if files[0].isFile then [Figure(FigureTarget(cfg, dir, files[0]))] else [])
      + FigureLinks(cfg, dir, files[1..])
  }

  /** The links keep the listed order: the links of a split listing are the split links. */
  lemma {:induction false} FigureLinksAppend(cfg: S3Config, dir: string, a: seq<FigureFile>, b: seq<FigureFile>)
    ensures FigureLinks(cfg, dir, a + b) == FigureLinks(cfg, dir, a) + FigureLinks(cfg, dir, b)
  {
    if |a| == 0 {
      assert a + b == b;
    } else {
      assert (a + b)[1..] == a[1..] + b;
      FigureLinksAppend(cfg, dir, a[1..], b);
    }
  }

  /**
   Every regular file gets its link, right after the links of the regular
   files listed before it; a directory gets none.
   */
  lemma FigureLinkAt(cfg: S3Config, dir: string, files: seq<FigureFile>, i: nat)
    requires i < |files|
    ensures var before := |FigureLinks(cfg, dir, files[..i])|;
            var links := FigureLinks(cfg, dir, files);
            if files[i].isFile then before < |links| && links[before] == Figure(FigureTarget(cfg, dir, files[i]))
            else FigureLinks(cfg, dir, files[..i + 1]) == FigureLinks(cfg, dir, files[..i])
  {
    assert files == files[..i] + [files[i]] + files[i + 1..];
    assert files[..i + 1] == files[..i] + [files[i]];
    FigureLinksAppend(cfg, dir, files[..i] + [files[i]], files[i + 1..]);
    FigureLinksAppend(cfg, dir, files[..i], [files[i]]);
    assert FigureLinks(cfg, dir, [files[i]]) == if files[i].isFile then [Figure(FigureTarget(cfg, dir, files[i]))] else [];
  }

  /** Unless S3 is configured and the transfer went through, a figure links its extracted local path. */
  lemma FigureFallsBackToLocal(cfg: S3Config, dir: string, f: FigureFile)
    requires !(Configured(cfg) && f.transfer == Transferred)
    ensures FigureTarget(cfg, dir, f) == PathJoin(dir, f.name)
  {
    UrlNeverEmpty(cfg, PathJoin(dir, f.name), f.transfer);
  }

  /**
   A figure whose transfer went through under S3 settings links the object
   named by the basename of its path, which for a plain file name is that name.
   */
  lemma FigureLinksToS3(cfg: S3Config, dir: string, f: FigureFile)
    requires Configured(cfg) && f.transfer == Transferred
    ensures FigureTarget(cfg, dir, f) == "https://" + cfg.bucket + ".s3.amazonaws.com/" + Basename(PathJoin(dir, f.name))
    ensures |f.name| > 0 && '/' !in f.name ==> FigureTarget(cfg, dir, f) == "https://" + cfg.bucket + ".s3.amazonaws.com/" + f.name
  {
    UrlNeverEmpty(cfg, PathJoin(dir, f.name), f.transfer);
    if |f.name| > 0 && '/' !in f.name {
      BasenameOfJoin(dir, f.name);
    }
  }

  /** The Images section: its heading whenever `figures/` exists, even with no files in it. */
  function FigureFragments(cfg: S3Config, dir: string, folder: Option<seq<FigureFile>>): (r: seq<Fragment>)
    ensures folder.None? <==> r == []
    ensures folder.Some? ==> r[0] == ImagesHeader
    ensures folder.Some? ==> |r| == 1 + |FigureLinks(cfg, dir, SortBy(folder.value, FigureName))|
  {
    match folder
    case None => []
    case Some(files) => [ImagesHeader] + FigureLinks(cfg, dir, SortBy(files, FigureName))
  }

  /**
   Whatever the upload did, a figure's link ends in the figure's own file
   name: the object key of the URL is the basename of the uploaded path.
   */
  lemma FigureKeepsName(cfg: S3Config, dir: string, f: FigureFile)
    requires |f.name| > 0 && '/' !in f.name
    ensures Basename(FigureTarget(cfg, dir, f)) == f.name
  {
    var path := PathJoin(dir, f.name);
    BasenameOfJoin(dir, f.name);
    if HasUrl(UploadFile(cfg, path, f.transfer).url) {
      ObjectKeyIsLastSegment(cfg, path);
    }
  }

  /** The links a run without S3 settings produces: the extracted path of every regular file. */
  function LocalLinks(dir: string, files: seq<FigureFile>): seq<Fragment>
  {
    if |files| == 0 then []
    else (if files[0].isFile then [Figure(PathJoin(dir, files[0].name))] else []) + LocalLinks(dir, files[1..])
  }

  lemma {:induction false} UnconfiguredFiguresAreLocal(cfg: S3Config, dir: string, files: seq<FigureFile>)
    requires !Configured(cfg)
    ensures FigureLinks(cfg, dir, files) == LocalLinks(dir, files)
  {
    if |files| > 0 {
      UnconfiguredFiguresAreLocal(cfg, dir, files[1..]);
    }
  }

  // ---------------------------------------------------------------------------
  // The whole document
  // ---------------------------------------------------------------------------

  /** The fragments in document order: manifest elements, workbook tables, figures. */
  function DocumentFragments(cfg: S3Config, x: AdobeExtract): seq<Fragment>
    requires x.manifest.Some?
  {
    ElementsFragments(x.manifest.value.elements.GetOr([]))
    + SheetFragments(x.tablesFolder)
    + FigureFragments(cfg, FiguresDir(x.zipPath), x.figuresFolder)
  }

  /**
   The document, or `None` where the function raises `FileNotFoundError`
   because the ZIP held no `structuredData.json`.
   */
  function AdobeZipToMarkdown(cfg: S3Config, x: AdobeExtract): (r: Option<string>)
    ensures r.None? <==> x.manifest.None?
    ensures r.Some? ==> StartsWith(r.value, DocumentHeading)
  {
    if x.manifest.None? then None
    else Some(DocumentHeading + ConcatMap(DocumentFragments(cfg, x), ShowFragment))
  }

  /**
   Workbook `k` of the selected list (the `.xlsx` entries of `tables/` by
   ascending name) is written right after the manifest elements' blocks and
   the workbooks before it, under its own name, with its cells' texts.
   */
  lemma SheetAt(cfg: S3Config, x: AdobeExtract, k: nat)
    requires x.manifest.Some? && k < |Workbooks(x.tablesFolder)|
    ensures var pre := |ElementsFragments(x.manifest.value.elements.GetOr([]))|;
            var book := Workbooks(x.tablesFolder)[k];
            var doc := DocumentFragments(cfg, x);
            pre + k < |doc| && doc[pre + k] == SheetTable(book.name, SheetText(book.sheet))
  {
    var e := ElementsFragments(x.manifest.value.elements.GetOr([]));
    var t := SheetFragments(x.tablesFolder);
    var f := FigureFragments(cfg, FiguresDir(x.zipPath), x.figuresFolder);
    SheetBlockAt(Workbooks(x.tablesFolder), k);
    assert DocumentFragments(cfg, x) == e + t + f;
    IndexInMiddle(e, t, f, k);
  }


  /**
   With a `figures/` folder, its `## Images` heading follows the elements and
   the workbooks, and entry `i` of the listing sorted by name, when a regular
   file, is linked right after the links of the regular files sorted before it.
   */
  lemma FigureAt(cfg: S3Config, x: AdobeExtract, i: nat)
    requires x.manifest.Some? && x.figuresFolder.Some? && i < |x.figuresFolder.value|
    ensures var dir := FiguresDir(x.zipPath);
            var sorted := SortBy(x.figuresFolder.value, FigureName);
            var pre := |ElementsFragments(x.manifest.value.elements.GetOr([]))| + |SheetFragments(x.tablesFolder)|;
            var doc := DocumentFragments(cfg, x);
            var at := pre + 1 + |FigureLinks(cfg, dir, sorted[..i])|;
            pre < |doc| && doc[pre] == ImagesHeader
            && SortedBy(sorted, FigureName)
            && (sorted[i].isFile ==> at < |doc| && doc[at] == Figure(FigureTarget(cfg, dir, sorted[i])))
  {
    var dir := FiguresDir(x.zipPath);
    var sorted := SortBy(x.figuresFolder.value, FigureName);
    var e := ElementsFragments(x.manifest.value.elements.GetOr([]));
    var t := SheetFragments(x.tablesFolder);
    var links := FigureLinks(cfg, dir, sorted);
    var f := [ImagesHeader] + links;
    var doc := DocumentFragments(cfg, x);
    assert doc == (e + t) + f;
    var pre := |e + t|;
    assert doc[pre] == f[0] == ImagesHeader;
    FigureLinkAt(cfg, dir, sorted, i);
    if sorted[i].isFile {
      var n := |FigureLinks(cfg, dir, sorted[..i])|;
      assert doc[pre + 1 + n] == f[1 + n] == links[n];
    }
  }

  /** The document is the heading, then the three parts in order, each rendered on its own. */
  lemma AdobeSections(cfg: S3Config, x: AdobeExtract)
    requires x.manifest.Some?
    ensures AdobeZipToMarkdown(cfg, x) == Some(
      DocumentHeading
      + ConcatMap(ElementsFragments(x.manifest.value.elements.GetOr([])), ShowFragment)
      + ConcatMap(SheetFragments(x.tablesFolder), ShowFragment)
      + ConcatMap(FigureFragments(cfg, FiguresDir(x.zipPath), x.figuresFolder), ShowFragment))
  {
    var e := ElementsFragments(x.manifest.value.elements.GetOr([]));
    var t := SheetFragments(x.tablesFolder);
    var f := FigureFragments(cfg, FiguresDir(x.zipPath), x.figuresFolder);
    ConcatMapAppend(e + t, f, ShowFragment);
    ConcatMapAppend(e, t, ShowFragment);
    var ce, ct, cf := ConcatMap(e, ShowFragment), ConcatMap(t, ShowFragment), ConcatMap(f, ShowFragment);
    AppendAssoc(DocumentHeading, ce + ct, cf);
    AppendAssoc(DocumentHeading, ce, ct);
  }

  /** A manifest with no elements and a ZIP with neither folder give the heading alone. */
  lemma EmptyBundle(cfg: S3Config, zipPath: string)
    ensures AdobeZipToMarkdown(cfg, AdobeExtract(zipPath, Some(Manifest(None)), None, None)) == Some(DocumentHeading)
  {
    var x := AdobeExtract(zipPath, Some(Manifest(None)), None, None);
    assert ElementsFragments([]) == [];
    assert Workbooks(None) == [];
    assert DocumentFragments(cfg, x) == [];
    assert DocumentHeading + "" == DocumentHeading;
  }
}

=== FILE: diffbot.dfy ===
/**
 `enterprise_extract_website` (streamlitCloud_app.py:369-418): the Markdown
 built from a Diffbot Article API reply. The HTTP GET is a function parameter
 from the request URL to the reply's status and parsed JSON.
 */
module Diffbot {
  import opened Wrappers
  import opened Text
  import PipeTable

  /** An entry of an object's `images`; both keys may be missing. */
  datatype DiffbotImage = DiffbotImage(url: Option<string>, caption: Option<string>)

  /** An entry of an object's `tables`; `rows` may be missing. */
  datatype DiffbotTable = DiffbotTable(rows: Option<seq<seq<string>>>)

  /** An entry of the reply's `objects`, with the four keys the function reads. */
  datatype DiffbotObject = DiffbotObject(
    title: Option<string>,
    text: Option<string>,
    images: Option<seq<DiffbotImage>>,
    tables: Option<seq<DiffbotTable>>)

  /** The HTTP status of the reply and its `objects` key. */
  datatype DiffbotReply = DiffbotReply(status: int, objects: Option<seq<DiffbotObject>>)

  /** One piece of the document, in the order the function appends them. */
  datatype Piece =
    | Title(title: string)
    | Body(text: string)
    | ImagesHeading
    | ImageLink(caption: string, url: string)
    | TablesHeading
    | Table(rows: seq<seq<string>>)

  function ShowPiece(p: Piece): string
  {
    match p
    case Title(title) => "# " + title + "\n\n"
    case Body(text) => text + "\n\n"
    case ImagesHeading => "## Images\n\n"
    case ImageLink(caption, url) => "![" + caption + "](" + url + ")\n\n"
    case TablesHeading => "## Tables\n\n"
    case Table(rows) => PipeTable.RenderHeaderFirst(rows)
  }

  const ApiBase := "https://api.diffbot.com/v3/article"

  /** The request URL; neither the token nor the page URL is escaped. */
  function Endpoint(token: string, url: string): (e: string)
    ensures StartsWith(e, ApiBase + "?token=" + token + "&url=")
    ensures EndsWith(e, url)
    ensures |e| == |ApiBase + "?token=" + token + "&url="| + |url|
  {
    ApiBase + "?token=" + token + "&url=" + url
  }

  /** An image with no `caption` is captioned `Image`; one with no `url` links to `""`. */
  function ImageLinks(images: seq<DiffbotImage>): seq<Piece>
  {
    seq(|images|, k requires 0 <= k < |images| => ImageLink(images[k].caption.GetOr("Image"), images[k].url.GetOr("")))
  }

  /** One pipe table per table with a non-empty `rows`; the others are skipped. */
  function TablePieces(tables: seq<DiffbotTable>): (r: seq<Piece>)
    ensures |r| <= |tables|
    ensures forall k :: 0 <= k < |r| ==> r[k].Table? && |r[k].rows| > 0
  {
    if |tables| == 0 then []
    else
      var rows := tables[0].rows.GetOr([]);
      (if |rows| > 0 then [Table(rows)] else []) + TablePieces(tables[1..])
  }

  /** The tables keep their order: the pieces of a split list are the split pieces. */
  lemma {:induction false} TablePiecesAppend(a: seq<DiffbotTable>, b: seq<DiffbotTable>)
    ensures TablePieces(a + b) == TablePieces(a) + TablePieces(b)
  {
    if |a| == 0 {
      assert a + b == b;
    } else {
      assert (a + b)[1..] == a[1..] + b;
      TablePiecesAppend(a[1..], b);
    }
  }

  /** A table whose `rows` is missing or empty adds nothing, wherever it stands. */
  lemma EmptyTableSkipped(a: seq<DiffbotTable>, t: DiffbotTable, b: seq<DiffbotTable>)
    requires |t.rows.GetOr([])| == 0
    ensures TablePieces(a + [t] + b) == TablePieces(a + b)
  {
    TablePiecesAppend(a + [t], b);
    TablePiecesAppend(a, [t]);
    TablePiecesAppend(a, b);
    assert TablePieces([t]) == [];
  }

  /**
   Every table with rows is written, right after the tables with rows that
   come before it.
   */
  lemma TablePieceAt(tables: seq<DiffbotTable>, i: nat)
    requires i < |tables| && |tables[i].rows.GetOr([])| > 0
    ensures |TablePieces(tables[..i])| < |TablePieces(tables)|
    ensures TablePieces(tables)[|TablePieces(tables[..i])|] == Table(tables[i].rows.value)
  {
    assert tables == tables[..i] + [tables[i]] + tables[i + 1..];
    TablePiecesAppend(tables[..i] + [tables[i]], tables[i + 1..]);
    TablePiecesAppend(tables[..i], [tables[i]]);
    assert TablePieces([tables[i]]) == [Table(tables[i].rows.value)];
  }

  /** The Images part: present only when `images` is non-empty. */
  function ImagePart(images: seq<DiffbotImage>): (r: seq<Piece>)
    ensures |r| == if |images| > 0 then 1 + |images| else 0
  {
    if |images| > 0 then [ImagesHeading] + ImageLinks(images) else []
  }

  /** The Tables part: present only when `tables` is non-empty, even if no table has rows. */
  function TablePart(tables: seq<DiffbotTable>): (r: seq<Piece>)
    ensures |r| == if |tables| > 0 then 1 + |TablePieces(tables)| else 0
  {
    if |tables| > 0 then [TablesHeading] + TablePieces(tables) else []
  }

  /**
   The pieces of one object: its title (`Untitled` when missing) and text,
   then the Images part only when `images` is non-empty, then the Tables part
   only when `tables` is non-empty.
   */
  function ObjectPieces(obj: DiffbotObject): (r: seq<Piece>)
    ensures |r| >= 2
    ensures r[0] == Title(obj.title.GetOr("Untitled")) && r[1] == Body(obj.text.GetOr(""))
    ensures ImagesHeading in r <==> |obj.images.GetOr([])| > 0
    ensures TablesHeading in r <==> |obj.tables.GetOr([])| > 0
    ensures |r| == 2 + |ImagePart(obj.images.GetOr([]))| + |TablePart(obj.tables.GetOr([]))|
  {
    var imagePart := ImagePart(obj.images.GetOr([]));
    var tablePart := TablePart(obj.tables.GetOr([]));
    assert ImagesHeading !in tablePart && TablesHeading !in imagePart;
    [Title(obj.title.GetOr("Untitled")), Body(obj.text.GetOr(""))] + imagePart + tablePart
  }

  /**
   With a non-empty `images`, the Images heading follows the object's text,
   and image `k` is the `k`-th link after it: captioned `Image` only when the
   `caption` key is absent, and linking `""` only when the `url` key is absent.
   */
  lemma ImageLinkAt(obj: DiffbotObject, k: nat)
    requires k < |obj.images.GetOr([])|
    ensures var images := obj.images.GetOr([]);
            var pieces := ObjectPieces(obj);
            3 + k < |pieces| && pieces[2] == ImagesHeading
            && pieces[3 + k] == ImageLink(images[k].caption.GetOr("Image"), images[k].url.GetOr(""))
  {
    var images := obj.images.GetOr([]);
    var imagePart := ImagePart(images);
    var tablePart := TablePart(obj.tables.GetOr([]));
    assert ObjectPieces(obj) == [Title(obj.title.GetOr("Untitled")), Body(obj.text.GetOr(""))] + imagePart + tablePart;
    assert imagePart[1 + k] == ImageLinks(images)[k];
  }

  /**
   With a non-empty `tables`, the Tables heading follows the text and the
   Images part (absent, or its heading and one link per image), and every
   table with rows is written after it, right after the tables with rows
   that come before it.
   */
  lemma ObjectTableAt(obj: DiffbotObject, i: nat)
    requires i < |obj.tables.GetOr([])| && |obj.tables.GetOr([])[i].rows.GetOr([])| > 0
    ensures var tables := obj.tables.GetOr([]);
            var images := obj.images.GetOr([]);
            var pieces := ObjectPieces(obj);
            var at := 2 + (if |images| > 0 then 1 + |images| else 0);
            var before := |TablePieces(tables[..i])|;
            at + 1 + before < |pieces| && pieces[at] == TablesHeading
            && pieces[at + 1 + before] == Table(tables[i].rows.value)
  {
    var tables := obj.tables.GetOr([]);
    var imagePart := ImagePart(obj.images.GetOr([]));
    var head := [Title(obj.title.GetOr("Untitled")), Body(obj.text.GetOr(""))] + imagePart;
    assert ObjectPieces(obj) == head + ([TablesHeading] + TablePieces(tables));
    TablePieceAt(tables, i);
  }

  function ObjectsPieces(objects: seq<DiffbotObject>): seq<Piece>
  {
    if |objects| == 0 then [] else ObjectPieces(objects[0]) + ObjectsPieces(objects[1..])
  }

  /** A reply with one object is that object's pieces and nothing more. */
  lemma OneObjectPieces(obj: DiffbotObject)
    ensures ObjectsPieces([obj]) == ObjectPieces(obj)
  {
    assert [obj][1..] == [];
    assert ObjectPieces(obj) + [] == ObjectPieces(obj);
  }

  /** The objects keep their order. */
  lemma {:induction false} ObjectsPiecesAppend(a: seq<DiffbotObject>, b: seq<DiffbotObject>)
    ensures ObjectsPieces(a + b) == ObjectsPieces(a) + ObjectsPieces(b)
  {
    if |a| == 0 {
      assert a + b == b;
    } else {
      assert (a + b)[1..] == a[1..] + b;
      ObjectsPiecesAppend(a[1..], b);
    }
  }

  /** One title per object: the document has as many `Title` pieces as the reply has objects. */
  function TitleCount(pieces: seq<Piece>): nat
  {
    if |pieces| == 0 then 0 else (if pieces[0].Title? then 1 else 0) + TitleCount(pieces[1..])
  }

  lemma {:induction false} TitleCountAppend(a: seq<Piece>, b: seq<Piece>)
    ensures TitleCount(a + b) == TitleCount(a) + TitleCount(b)
  {
    if |a| == 0 {
      assert a + b == b;
    } else {
      assert (a + b)[1..] == a[1..] + b;
      TitleCountAppend(a[1..], b);
    }
  }

  lemma {:induction false} OneTitlePerObject(objects: seq<DiffbotObject>)
    ensures TitleCount(ObjectsPieces(objects)) == |objects|
  {
    if |objects| > 0 {
      var p := ObjectPieces(objects[0]);
      OneTitlePerObject(objects[1..]);
      TitleCountAppend(p, ObjectsPieces(objects[1..]));
      assert p == [p[0]] + p[1..];
      TitleCountAppend([p[0]], p[1..]);
      assert p[1..] == [p[1]] + p[2..];
      TitleCountAppend([p[1]], p[2..]);
      NoTitleAfterBody(objects[0]);
    }
  }

  lemma NoTitleAfterBody(obj: DiffbotObject)
    ensures TitleCount(ObjectPieces(obj)[2..]) == 0
  {
    var imagePart := ImagePart(obj.images.GetOr([]));
    var tablePart := TablePart(obj.tables.GetOr([]));
    var head := [Title(obj.title.GetOr("Untitled")), Body(obj.text.GetOr(""))];
    assert ObjectPieces(obj) == head + imagePart + tablePart;
    AppendAssoc(head, imagePart, tablePart);
    assert (head + (imagePart + tablePart))[|head|..] == imagePart + tablePart;
    NoTitleInImagePart(obj.images.GetOr([]));
    NoTitleInTablePart(obj.tables.GetOr([]));
    TitleCountAppend(imagePart, tablePart);
  }

  lemma NoTitleInImagePart(images: seq<DiffbotImage>)
    ensures TitleCount(ImagePart(images)) == 0
  {
    NoTitles(ImagePart(images));
  }

  lemma NoTitleInTablePart(tables: seq<DiffbotTable>)
    ensures TitleCount(TablePart(tables)) == 0
  {
    NoTitles(TablePart(tables));
  }

  lemma {:induction false} NoTitles(pieces: seq<Piece>)
    requires forall k :: 0 <= k < |pieces| ==> !pieces[k].Title?
    ensures TitleCount(pieces) == 0
  {
    if |pieces| > 0 {
      NoTitles(pieces[1..]);
    }
  }

  /**
   The document, or `None` when no token is set, the reply's status is not
   200, or the reply holds no objects (the Markdown would be `""`).
   */
  function EnterpriseExtractWebsite(token: Option<string>, url: string, get: string -> DiffbotReply): (r: Option<string>)
    ensures r.None? <==>
      token.GetOr("") == ""
      || get(Endpoint(token.GetOr(""), url)).status != 200
      || |get(Endpoint(token.GetOr(""), url)).objects.GetOr([])| == 0
    ensures r.Some? ==> StartsWith(r.value, "# ")
  {
    var t := token.GetOr("");
    if t == "" then None
    else
      var reply := get(Endpoint(t, url));
      if reply.status != 200 then None
      else
        var objects := reply.objects.GetOr([]);
        var md := ConcatMap(ObjectsPieces(objects), ShowPiece);
        if md == "" then None
        else
          assert |objects| > 0 ==> md[..2] == "# " by {
            if |objects| > 0 {
              var p := ObjectsPieces(objects);
              assert p[0] == Title(objects[0].title.GetOr("Untitled"));
              assert md == ShowPiece(p[0]) + ConcatMap(p[1..], ShowPiece);
            }
          }
          Some(md)
  }

  /** The reply to the one request URL decides everything: no other request is made. */
  lemma OnlyEndpointQueried(token: Option<string>, url: string, get1: string -> DiffbotReply, get2: string -> DiffbotReply)
    requires get1(Endpoint(token.GetOr(""), url)) == get2(Endpoint(token.GetOr(""), url))
    ensures EnterpriseExtractWebsite(token, url, get1) == EnterpriseExtractWebsite(token, url, get2)
  {
  }

  /** A table with rows is written as the same pipe table the other extractors write, then a blank line. */
  lemma TableLikeOthers(rows: seq<seq<string>>)
    requires |rows| > 0
    ensures ShowPiece(Table(rows)) == PipeTable.Render(rows) + "\n"
  {
    PipeTable.HeaderFirstAgrees(rows);
  }
}

=== FILE: local_pdf.dfy ===
/**
 The open-source PDF pipeline (streamlitCloud_app.py:42-119): a title line,
 then the Images, Text and Tables sections, in that order. What PyMuPDF,
 pdfplumber and tabula found is an input; each image carries what its S3
 transfer did, and the upload gate of `S3Upload` decides its URL.
 */
module LocalPdf {
  import opened Wrappers
  import opened Text
  import opened S3Upload

  /** An image PyMuPDF found on a page, written to a temporary file. */
  datatype PageImage = PageImage(tempPath: string, transfer: TransferOutcome)

  /** What pandas' Markdown rendering did for one table tabula found: the text, or a failure. */
  datatype TableRender = Rendered(markdown: string) | RenderFailed(message: string)

  /** What tabula's read of every table on every page did: the tables, or a failure. */
  datatype TableExtraction = ReadFailed(message: string) | ReadTables(tables: seq<TableRender>)

  /**
   Everything the extractors report for one PDF: its path, the images of each
   page, the text of each page (`None` when pdfplumber found none), and the
   tables.
   */
  datatype PdfExtraction = PdfExtraction(
    pdfPath: string,
    pageImages: seq<seq<PageImage>>,
    pageTexts: seq<Option<string>>,
    tables: TableExtraction)

  const ImagesHeading := "\n## Extracted Images\n"
  const TextHeading := "\n## Extracted Text\n"
  const TablesHeading := "\n## Extracted Tables\n"

  function TitleLine(pdfPath: string): string
  {
    "# Extracted Content from " + Basename(pdfPath) + "\n"
  }

  // ---------------------------------------------------------------------------
  // Images (lines 42-88)
  // ---------------------------------------------------------------------------

  /** One line of the Images section: image `index` of page `page`, both 1-based, and its upload's URL. */
  datatype ImageLine = ImageLine(page: nat, index: nat, url: Option<string>)

  /** An image reference when the upload returned a URL, the warning line otherwise (lines 78-85). */
  function ShowImageLine(line: ImageLine): string
  {
    if HasUrl(line.url) then
      "![Image page " + NatToString(line.page) + " - " + NatToString(line.index) + "](" + line.url.value + ")\n"
    else
      "\n**[Warning: Failed to upload image (page " + NatToString(line.page)
      + ", index " + NatToString(line.index) + ") to S3]**\n"
  }

  function ImageUrl(cfg: S3Config, img: PageImage): Option<string>
  {
    UploadFile(cfg, img.tempPath, img.transfer).url
  }

  /** The lines for the images of page `page`, in discovery order. */
  function PageLines(cfg: S3Config, page: nat, images: seq<PageImage>): seq<ImageLine>
  {
    seq(|images|, i requires 0 <= i < |images| => ImageLine(page, i + 1, ImageUrl(cfg, images[i])))
  }

  /** The number of images on all pages. */
  function ImageCount(pages: seq<seq<PageImage>>): nat
  {
    if |pages| == 0 then 0 else ImageCount(pages[..|pages| - 1]) + |pages[|pages| - 1]|
  }

  /** How many images come before page `p`: the position of that page's first line. */
  function Offset(pages: seq<seq<PageImage>>, p: nat): nat
    requires p <= |pages|
  {
    ImageCount(pages[..p])
  }

  /** The lines of all pages, page after page. */
  function ImageLines(cfg: S3Config, pages: seq<seq<PageImage>>): (lines: seq<ImageLine>)
    ensures |lines| == ImageCount(pages)
  {
    if |pages| == 0 then []
    else ImageLines(cfg, pages[..|pages| - 1]) + PageLines(cfg, |pages|, pages[|pages| - 1])
  }

  /**
   Exactly one line per (page, image), in page-then-index order: the line of
   image `i` of page `p` (0-based here, printed 1-based) comes after the lines
   of every image on earlier pages and of the earlier images on its own page.
   */
  lemma {:induction false} ImagePosition(cfg: S3Config, pages: seq<seq<PageImage>>, p: nat, i: nat)
    requires p < |pages| && i < |pages[p]|
    ensures Offset(pages, p) + i < |ImageLines(cfg, pages)|
    ensures ImageLines(cfg, pages)[Offset(pages, p) + i] == ImageLine(p + 1, i + 1, ImageUrl(cfg, pages[p][i]))
  {
    var n := |pages| - 1;
    var init := pages[..n];
    if p < n {
      assert init[..p] == pages[..p];
      assert init[p] == pages[p];
      ImagePosition(cfg, init, p, i);
    } else {
      assert pages[..p] == init;
    }
  }

  function ImagesSection(cfg: S3Config, pages: seq<seq<PageImage>>): string
  {
    ImagesHeading + ConcatMap(ImageLines(cfg, pages), ShowImageLine)
  }

  lemma PageLinesSnoc(cfg: S3Config, page: nat, images: seq<PageImage>, i: nat)
    requires i < |images|
    ensures PageLines(cfg, page, images[..i + 1])
         == PageLines(cfg, page, images[..i]) + [ImageLine(page, i + 1, ImageUrl(cfg, images[i]))]
  {
  }

  lemma ImageLinesSnoc(cfg: S3Config, pages: seq<seq<PageImage>>, p: nat)
    requires p < |pages|
    ensures ImageLines(cfg, pages[..p + 1]) == ImageLines(cfg, pages[..p]) + PageLines(cfg, p + 1, pages[p])
  {
    assert pages[..p + 1][..p] == pages[..p];
  }

  /** The loops of lines 56-85 as written: pages outer, images inner, one upload per image. */
  method ExtractImagesToMd(cfg: S3Config, pages: seq<seq<PageImage>>) returns (md: string)
    ensures md == ImagesSection(cfg, pages)
  {
    md := ImagesHeading;
    var p := 0;
    while p < |pages|
      invariant 0 <= p <= |pages|
      invariant md == ImagesHeading + ConcatMap(ImageLines(cfg, pages[..p]), ShowImageLine)
    {
      var images := pages[p];
      ghost var before := ImageLines(cfg, pages[..p]);
      var i := 0;
      while i < |images|
        invariant 0 <= i <= |images|
        invariant md == ImagesHeading + ConcatMap(before, ShowImageLine)
                        + ConcatMap(PageLines(cfg, p + 1, images[..i]), ShowImageLine)
      {
        var url := UploadFile(cfg, images[i].tempPath, images[i].transfer).url;
        var line := ImageLine(p + 1, i + 1, url);
        ghost var done := PageLines(cfg, p + 1, images[..i]);
        PageLinesSnoc(cfg, p + 1, images, i);
        ConcatMapSnoc(done, line, ShowImageLine);
        AppendAssoc(ImagesHeading + ConcatMap(before, ShowImageLine), ConcatMap(done, ShowImageLine), ShowImageLine(line));
        md := md + ShowImageLine(line);
        i := i + 1;
      }
      assert images[..i] == images;
      ImageLinesSnoc(cfg, pages, p);
      ConcatMapAppend(before, PageLines(cfg, p + 1, images), ShowImageLine);
      AppendAssoc(ImagesHeading, ConcatMap(before, ShowImageLine), ConcatMap(PageLines(cfg, p + 1, images), ShowImageLine));
      p := p + 1;
    }
    assert pages[..p] == pages;
  }

  /** Without S3 settings no client is created and every image gets the warning line. */
  lemma UnconfiguredImagesAllWarn(cfg: S3Config, pages: seq<seq<PageImage>>, p: nat, i: nat)
    requires !Configured(cfg)
    requires p < |pages| && i < |pages[p]|
    ensures UploadFile(cfg, pages[p][i].tempPath, pages[p][i].transfer).client.None?
    ensures Offset(pages, p) + i < |ImageLines(cfg, pages)|
    ensures ImageLines(cfg, pages)[Offset(pages, p) + i] == ImageLine(p + 1, i + 1, None)
  {
    ImagePosition(cfg, pages, p, i);
  }

  // ---------------------------------------------------------------------------
  // Text (lines 91-98)
  // ---------------------------------------------------------------------------

  /** Page `page` (1-based) and its text. */
  datatype PageBlock = PageBlock(page: nat, text: string)

  /** A `### Page n` heading and the text in a fenced block. */
  function ShowPageBlock(block: PageBlock): string
  {
    "\n### Page " + NatToString(block.page) + "\n```\n" + block.text + "\n```\n"
  }

  /** One block per page, in page order; a page without text reads as `""`. */
  function PageBlocks(texts: seq<Option<string>>): seq<PageBlock>
  {
    seq(|texts|, k requires 0 <= k < |texts| => PageBlock(k + 1, texts[k].GetOr("")))
  }

  function TextSection(texts: seq<Option<string>>): string
  {
    TextHeading + ConcatMap(PageBlocks(texts), ShowPageBlock)
  }

  /** The loop of lines 95-97 as written. */
  method ExtractTextToMd(texts: seq<Option<string>>) returns (md: string)
    ensures md == TextSection(texts)
  {
    md := TextHeading;
    var k := 0;
    while k < |texts|
      invariant 0 <= k <= |texts|
      invariant md == TextHeading + ConcatMap(PageBlocks(texts[..k]), ShowPageBlock)
    {
      var pageText := if texts[k].Some? then texts[k].value else "";
      var block := PageBlock(k + 1, pageText);
      assert PageBlocks(texts[..k + 1]) == PageBlocks(texts[..k]) + [block];
      ConcatMapSnoc(PageBlocks(texts[..k]), block, ShowPageBlock);
      AppendAssoc(TextHeading, ConcatMap(PageBlocks(texts[..k]), ShowPageBlock), ShowPageBlock(block));
      md := md + ShowPageBlock(block);
      k := k + 1;
    }
    assert texts[..k] == texts;
  }

  /** The text between the fences of a page block is the page's text, verbatim. */
  lemma PageTextVerbatim(block: PageBlock)
    ensures var b := ShowPageBlock(block);
            var start := |"\n### Page " + NatToString(block.page) + "\n```\n"|;
            start <= |b| - 5 && b[start..|b| - 5] == block.text && b[|b| - 5..] == "\n```\n"
  {
  }

  // ---------------------------------------------------------------------------
  // Tables (lines 100-111)
  // ---------------------------------------------------------------------------

  /** Table `index` (1-based) of the document and its `to_markdown` rendering. */
  datatype TableBlock = TableBlock(index: nat, markdown: string)

  function TableHeading(index: nat): string
  {
    "\n### Table " + NatToString(index) + "\n"
  }

  function ShowTableBlock(block: TableBlock): string
  {
    TableHeading(block.index) + block.markdown + "\n"
  }

  function FailureLine(message: string): string
  {
    "\nFailed to process tables: " + message + "\n"
  }

  /** The position of the first table whose rendering raises, or `|tables|` when none does. */
  function FirstFailure(tables: seq<TableRender>): (j: nat)
    ensures j <= |tables|
    ensures forall k :: 0 <= k < j ==> tables[k].Rendered?
    ensures j < |tables| ==> tables[j].RenderFailed?
  {
    if |tables| == 0 then 0
    else if tables[0].RenderFailed? then 0
    else 1 + FirstFailure(tables[1..])
  }

  /** The blocks of the first `n` tables, all of which rendered. */
  function RenderedBlocks(tables: seq<TableRender>, n: nat): seq<TableBlock>
    requires n <= |tables|
    requires forall k :: 0 <= k < n ==> tables[k].Rendered?
  {
    seq(n, k requires 0 <= k < n => TableBlock(k + 1, tables[k].markdown))
  }

  /**
   The Tables section: a read failure gives the failure line alone; otherwise
   one block per table up to the first whose rendering raises, then that
   table's heading and the failure line, and nothing after it.
   */
  function TablesSection(t: TableExtraction): string
  {
    match t
    case ReadFailed(message) => TablesHeading + FailureLine(message)
    case ReadTables(tables) =>
      var j := FirstFailure(tables);
      TablesHeading + ConcatMap(RenderedBlocks(tables, j), ShowTableBlock)
      + (if j < |tables| then TableHeading(j + 1) + FailureLine(tables[j].message) else "")
  }

  /**
   The Tables section while the loop of lines 105-108 runs: the heading, the
   blocks of the first `i` tables and, once table `i` has raised, its heading
   and the failure line.
   */
  ghost function TablesSoFar(tables: seq<TableRender>, i: nat, failed: bool): string
    requires i <= |tables| && (failed ==> i < |tables| && tables[i].RenderFailed?)
    requires forall k :: 0 <= k < i ==> tables[k].Rendered?
  {
    TablesHeading + ConcatMap(RenderedBlocks(tables, i), ShowTableBlock)
    + (if failed then TableHeading(i + 1) + FailureLine(tables[i].message) else "")
  }

  /** One more rendered table appends its heading, its Markdown and a newline. */
  lemma RenderedStep(tables: seq<TableRender>, i: nat)
    requires i < |tables| && tables[i].Rendered?
    requires forall k :: 0 <= k < i ==> tables[k].Rendered?
    ensures TablesSoFar(tables, i + 1, false)
         == TablesSoFar(tables, i, false) + TableHeading(i + 1) + tables[i].markdown + "\n"
  {
    var done := ConcatMap(RenderedBlocks(tables, i), ShowTableBlock);
    var block := TableBlock(i + 1, tables[i].markdown);
    assert RenderedBlocks(tables, i + 1) == RenderedBlocks(tables, i) + [block];
    ConcatMapSnoc(RenderedBlocks(tables, i), block, ShowTableBlock);
    assert TablesSoFar(tables, i, false) == TablesHeading + done;
    assert TablesSoFar(tables, i + 1, false) == TablesHeading + (done + ShowTableBlock(block));
    var h := TableHeading(i + 1);
    AppendAssoc(TablesHeading, done, ShowTableBlock(block));
    AppendAssoc(TablesHeading + done, h + tables[i].markdown, "\n");
    AppendAssoc(TablesHeading + done, h, tables[i].markdown);
  }

  /** A table that raises appends its heading and the failure line. */
  lemma FailedStep(tables: seq<TableRender>, i: nat)
    requires i < |tables| && tables[i].RenderFailed?
    requires forall k :: 0 <= k < i ==> tables[k].Rendered?
    ensures TablesSoFar(tables, i, true)
         == TablesSoFar(tables, i, false) + TableHeading(i + 1) + FailureLine(tables[i].message)
  {
    var done := ConcatMap(RenderedBlocks(tables, i), ShowTableBlock);
    assert TablesSoFar(tables, i, false) == TablesHeading + done;
  }

  /** The try/except of lines 103-110 as written: a failure ends the loop and is reported, never raised. */
  method ExtractTablesToMd(t: TableExtraction) returns (md: string)
    ensures md == TablesSection(t)
  {
    md := TablesHeading;
    match t {
      case ReadFailed(message) =>
        md := md + FailureLine(message);
      case ReadTables(tables) =>
        var i := 0;
        var failed := false;
        assert TablesSoFar(tables, 0, false) == TablesHeading + "" + "";
        while i < |tables| && !failed
          invariant 0 <= i <= FirstFailure(tables)
          invariant failed ==> i == FirstFailure(tables) < |tables|
          invariant md == TablesSoFar(tables, i, failed)
          decreases |tables| - i, !failed
        {
          md := md + TableHeading(i + 1);
          if tables[i].Rendered? {
            RenderedStep(tables, i);
            md := md + tables[i].markdown;
            md := md + "\n";
            i := i + 1;
          } else {
            FailedStep(tables, i);
            md := md + FailureLine(tables[i].message);
            failed := true;
          }
        }
    }
  }

  // ---------------------------------------------------------------------------
  // The whole document (lines 113-119)
  // ---------------------------------------------------------------------------

  function PdfMarkdown(cfg: S3Config, doc: PdfExtraction): string
  {
    TitleLine(doc.pdfPath) + ImagesSection(cfg, doc.pageImages)
    + TextSection(doc.pageTexts) + TablesSection(doc.tables)
  }

  /** `open_source_extract_pdf` as written: the three extractors, appended in order. */
  method OpenSourceExtractPdf(cfg: S3Config, doc: PdfExtraction) returns (md: string)
    ensures md == PdfMarkdown(cfg, doc)
  {
    md := "# Extracted Content from " + Basename(doc.pdfPath) + "\n";
    var images := ExtractImagesToMd(cfg, doc.pageImages);
    md := md + images;
    var text := ExtractTextToMd(doc.pageTexts);
    md := md + text;
    var tables := ExtractTablesToMd(doc.tables);
    md := md + tables;
  }

  lemma {:induction false} NoImagesNoLines(pages: seq<seq<PageImage>>)
    requires forall p :: 0 <= p < |pages| ==> |pages[p]| == 0
    ensures ImageCount(pages) == 0
  {
    if |pages| > 0 {
      NoImagesNoLines(pages[..|pages| - 1]);
    }
  }

  /**
   A PDF without images or tables: the four headings in order, with empty
   Images and Tables sections.
   */
  lemma EmptyDocumentSections(cfg: S3Config, doc: PdfExtraction)
    requires forall p :: 0 <= p < |doc.pageImages| ==> |doc.pageImages[p]| == 0
    requires doc.tables == ReadTables([])
    ensures PdfMarkdown(cfg, doc)
         == TitleLine(doc.pdfPath) + ImagesHeading + TextSection(doc.pageTexts) + TablesHeading
  {
    NoImagesNoLines(doc.pageImages);
    assert ImageLines(cfg, doc.pageImages) == [];
    assert ImagesSection(cfg, doc.pageImages) == ImagesHeading;
    assert RenderedBlocks([], 0) == [];
    assert TablesSection(doc.tables) == TablesHeading;
  }
}

=== FILE: pipe_table.dfy ===
/**
 The Markdown pipe table that the application writes in three places: for an
 Adobe manifest table (streamlitCloud_app.py:213-218), for an xlsx sheet
 (229-233) and for a Diffbot table (409-416). Each row becomes
 `| a | b |`, and the row after the header is a separator whose cells are
 runs of `-`, each as long as the header cell above it. Cells are not escaped.
 */
module PipeTable {
  import opened Wrappers
  import opened Text

  /** The separator between the cells of one row. */
  const CellSeparator := " | "

  /** A line of a rendered table: a row of cells, or the separator under the header. */
  datatype TableLine = Row(cells: seq<string>) | Separator(runs: seq<string>)

  /** One line of the table: the cells between `| ` and ` |`, separated by ` | `, then a line break. */
  function FormatCells(cells: seq<string>): string
  {
    "| " + Join(cells, CellSeparator) + " |\n"
  }

  function Show(line: TableLine): string
  {
    match line
    case Row(cells) => FormatCells(cells)
    case Separator(runs) => FormatCells(runs)
  }

  function ShowAll(lines: seq<TableLine>): string
  {
    if |lines| == 0 then "" else Show(lines[0]) + ShowAll(lines[1..])
  }

  lemma {:induction false} ShowAllAppend(a: seq<TableLine>, b: seq<TableLine>)
    ensures ShowAll(a + b) == ShowAll(a) + ShowAll(b)
  {
    if |a| == 0 {
      assert a + b == b;
    } else {
      assert (a + b)[1..] == a[1..] + b;
      ShowAllAppend(a[1..], b);
    }
  }

  /** The separator's cells: for each header cell, a run of `-` as long as that cell. */
  function DashRuns(header: seq<string>): (runs: seq<string>)
    ensures |runs| == |header|
    ensures forall j :: 0 <= j < |runs| ==> |runs[j]| == |header[j]|
    ensures forall j, k :: 0 <= j < |runs| && 0 <= k < |runs[j]| ==> runs[j][k] == '-'
  {
    if |header| == 0 then [] else [Dashes(|header[0]|)] + DashRuns(header[1..])
  }

  /**
   The lines written by the loop over the rows with their index, when the
   index of `rows[0]` is `i`: every row, and the separator right after the row
   whose index is 0.
   */
  function EnumeratedLines(rows: seq<seq<string>>, i: nat): seq<TableLine>
  {
    if |rows| == 0 then []
    else
      [Row(rows[0])]
      + (if i == 0 then [Separator(DashRuns(rows[0]))] else [])
      + EnumeratedLines(rows[1..], i + 1)
  }

  /** Past index 0 the enumeration writes plain rows only, in order. */
  lemma {:induction false} LaterRowsArePlain(rows: seq<seq<string>>, i: nat)
    requires i > 0
    ensures |EnumeratedLines(rows, i)| == |rows|
    ensures forall k :: 0 <= k < |rows| ==> EnumeratedLines(rows, i)[k] == Row(rows[k])
  {
    if |rows| > 0 {
      LaterRowsArePlain(rows[1..], i + 1);
    }
  }

  lemma {:induction false} EnumeratedSnoc(rows: seq<seq<string>>, row: seq<string>, i: nat)
    ensures EnumeratedLines(rows + [row], i)
         == EnumeratedLines(rows, i) + [Row(row)]
            + (if i + |rows| == 0 then [Separator(DashRuns(row))] else [])
  {
    if |rows| == 0 {
      assert rows + [row] == [row];
    } else {
      assert (rows + [row])[1..] == rows[1..] + [row];
      EnumeratedSnoc(rows[1..], row, i + 1);
    }
  }

  /** Where row `k` of the input lands among the rendered lines. */
  function RowPosition(k: nat): nat
  {
    if k == 0 then 0 else k + 1
  }

  /**
   The lines of a rendered table: the rows in input order, with exactly one
   separator, placed right after the header row, holding one dash run per
   header cell.
   */
  function TableLines(rows: seq<seq<string>>): (lines: seq<TableLine>)
    ensures |rows| == 0 ==> lines == []
    ensures |rows| > 0 ==> |lines| == |rows| + 1
    ensures |rows| > 0 ==> lines[1] == Separator(DashRuns(rows[0]))
    ensures forall k :: 0 <= k < |lines| ==> (lines[k].Separator? <==> k == 1)
    ensures forall k :: 0 <= k < |rows| ==> lines[RowPosition(k)] == Row(rows[k])
  {
    var lines := EnumeratedLines(rows, 0);
    if |rows| > 0 then
      LaterRowsArePlain(rows[1..], 1);
      lines
    else
      lines
  }

  /** The text a table's rows contribute: lines 214-217 and 229-233. */
  function Render(rows: seq<seq<string>>): string
  {
    ShowAll(TableLines(rows))
  }

  /**
   The loop of streamlitCloud_app.py:214-217 as written: append each row and,
   after the row with index 0, the separator.
   */
  method AppendRows(rows: seq<seq<string>>) returns (md: string)
    ensures md == Render(rows)
  {
    md := "";
    var i := 0;
    while i < |rows|
      invariant 0 <= i <= |rows|
      invariant md == Render(rows[..i])
    {
      ghost var before := EnumeratedLines(rows[..i], 0);
      ghost var sep: seq<TableLine> := if i == 0 then [Separator(DashRuns(rows[i]))] else [];
      EnumeratedSnoc(rows[..i], rows[i], 0);
      assert rows[..i + 1] == rows[..i] + [rows[i]];
      assert TableLines(rows[..i + 1]) == before + [Row(rows[i])] + sep;
      ShowAllAppend(before + [Row(rows[i])], sep);
      ShowAllAppend(before, [Row(rows[i])]);
      assert ShowAll([Row(rows[i])]) == FormatCells(rows[i]);
      assert ShowAll(sep) == if i == 0 then FormatCells(DashRuns(rows[i])) else "";
      md := md + FormatCells(rows[i]);
      if i == 0 {
        md := md + FormatCells(DashRuns(rows[i]));
      }
      i := i + 1;
    }
    assert rows[..i] == rows;
  }

  /** Every row formatted as a line, in order, with no separator anywhere. */
  function RenderPlainRows(rows: seq<seq<string>>): string
  {
    if |rows| == 0 then "" else FormatCells(rows[0]) + RenderPlainRows(rows[1..])
  }

  /**
   The Diffbot copy (lines 410-416): nothing for an empty table; otherwise the
   header, its separator, the remaining rows and a blank line.
   */
  function RenderHeaderFirst(rows: seq<seq<string>>): string
  {
    if |rows| == 0 then ""
    else FormatCells(rows[0]) + FormatCells(DashRuns(rows[0])) + RenderPlainRows(rows[1..]) + "\n"
  }

  lemma {:induction false} PlainRowsAreLaterRows(rows: seq<seq<string>>, i: nat)
    requires i > 0
    ensures RenderPlainRows(rows) == ShowAll(EnumeratedLines(rows, i))
  {
    if |rows| > 0 {
      PlainRowsAreLaterRows(rows[1..], i + 1);
      assert EnumeratedLines(rows, i) == [Row(rows[0])] + EnumeratedLines(rows[1..], i + 1);
    }
  }

  /**
   The three copies agree: for a non-empty table the Diffbot form writes what
   the enumerated form writes followed by the blank line the other two callers
   append themselves.
   */
  lemma HeaderFirstAgrees(rows: seq<seq<string>>)
    requires |rows| > 0
    ensures RenderHeaderFirst(rows) == Render(rows) + "\n"
  {
    var lines := EnumeratedLines(rows, 0);
    assert lines == [Row(rows[0]), Separator(DashRuns(rows[0]))] + EnumeratedLines(rows[1..], 1);
    PlainRowsAreLaterRows(rows[1..], 1);
    ShowAllAppend([Row(rows[0]), Separator(DashRuns(rows[0]))], EnumeratedLines(rows[1..], 1));
  }

  // ---------------------------------------------------------------------------
  // Reading a rendered table back. Because cells are not escaped, this only
  // works when no cell contains `|` or a line break.
  // ---------------------------------------------------------------------------

  /** A cell that survives rendering unambiguously. */
  predicate PlainCell(c: string)
  {
    '|' !in c && '\n' !in c
  }

  /** The first position of `" | "` in `s`. */
  function FindSeparator(s: string): Option<nat>
  {
    if |s| < 3 then None
    else if s[..3] == CellSeparator then Some(0)
    else match FindSeparator(s[1..])
      case None => None
      case Some(k) => Some(k + 1)
  }

  /** The pieces of `s` between occurrences of the cell separator, as Python's `split` cuts them. */
  function SplitCells(s: string): (parts: seq<string>)
    ensures |parts| >= 1
    decreases |s|
  {
    match FindSeparator(s)
    case None => [s]
    case Some(k) =>
      if k + 3 <= |s| then [s[..k]] + SplitCells(s[k + 3..]) else [s]
  }

  /** The cells of one rendered row, or `None` when the line is not `| ... |`. */
  function ParseRow(line: string): Option<seq<string>>
  {
    if |line| >= 5 && line[..2] == "| " && line[|line| - 3..] == " |\n"
    then Some(SplitCells(line[2..|line| - 3]))
    else None
  }

  lemma {:induction false} NoSeparatorInCell(c: string)
    requires '|' !in c
    ensures FindSeparator(c) == None
  {
    if |c| >= 3 {
      assert c[..3][1] == c[1];
      NoSeparatorInCell(c[1..]);
    }
  }

  lemma {:induction false} FirstSeparatorAfterCell(c: string, rest: string)
    requires '|' !in c
    ensures FindSeparator(c + CellSeparator + rest) == Some(|c|)
  {
    var s := c + CellSeparator + rest;
    if |c| > 0 {
      assert s[..3][1] == s[1];
      assert s[1..] == c[1..] + CellSeparator + rest;
      FirstSeparatorAfterCell(c[1..], rest);
    } else {
      assert s[..3] == CellSeparator;
    }
  }

  lemma {:induction false} SplitJoinRoundTrip(cells: seq<string>)
    requires |cells| >= 1
    requires forall c :: c in cells ==> '|' !in c
    ensures SplitCells(Join(cells, CellSeparator)) == cells
  {
    if |cells| == 1 {
      NoSeparatorInCell(cells[0]);
    } else {
      var rest := Join(cells[1..], CellSeparator);
      var s := cells[0] + CellSeparator + rest;
      FirstSeparatorAfterCell(cells[0], rest);
      assert s[..|cells[0]|] == cells[0];
      assert s[|cells[0]| + 3..] == rest;
      SplitJoinRoundTrip(cells[1..]);
    }
  }

  /** A row of `|`-free cells is read back exactly. */
  lemma ParseFormatRoundTrip(cells: seq<string>)
    requires |cells| >= 1
    requires forall c :: c in cells ==> '|' !in c
    ensures ParseRow(FormatCells(cells)) == Some(cells)
  {
    var line := FormatCells(cells);
    var j := Join(cells, CellSeparator);
    assert line[..2] == "| ";
    assert line[|line| - 3..] == " |\n";
    assert line[2..|line| - 3] == j;
    SplitJoinRoundTrip(cells);
  }

  /** A line that ends in its only line break. */
  predicate TerminatedLine(l: string)
  {
    |l| >= 1 && l[|l| - 1] == '\n' && '\n' !in l[..|l| - 1]
  }

  /** The first position of a line break in `s`. */
  function FindNewline(s: string): Option<nat>
  {
    if |s| == 0 then None
    else if s[0] == '\n' then Some(0)
    else match FindNewline(s[1..])
      case None => None
      case Some(k) => Some(k + 1)
  }

  /** The text split after each `\n`, every line keeping its line break; a last line without one is kept too. */
  function SplitLines(s: string): seq<string>
    decreases |s|
  {
    match FindNewline(s)
    case None => if |s| == 0 then [] else [s]
    case Some(k) => if k < |s| then [s[..k + 1]] + SplitLines(s[k + 1..]) else [s]
  }

  lemma {:induction false} FirstNewlineEndsLine(l: string, rest: string)
    requires TerminatedLine(l)
    ensures FindNewline(l + rest) == Some(|l| - 1)
  {
    if |l| > 1 {
      assert l[0] == l[..|l| - 1][0];
      assert (l + rest)[1..] == l[1..] + rest;
      assert l[1..][..|l[1..]| - 1] == l[..|l| - 1][1..];
      FirstNewlineEndsLine(l[1..], rest);
    }
  }

  lemma {:induction false} JoinKeepsPlain(cells: seq<string>)
    requires forall c :: c in cells ==> PlainCell(c)
    ensures '\n' !in Join(cells, CellSeparator)
  {
    if |cells| == 1 {
      assert PlainCell(cells[0]);
    } else if |cells| > 1 {
      assert PlainCell(cells[0]);
      JoinKeepsPlain(cells[1..]);
      var rest := Join(cells[1..], CellSeparator);
      assert Join(cells, CellSeparator) == cells[0] + CellSeparator + rest;
    }
  }

  lemma FormatCellsTerminated(cells: seq<string>)
    requires forall c :: c in cells ==> PlainCell(c)
    ensures TerminatedLine(FormatCells(cells))
  {
    JoinKeepsPlain(cells);
    var l := FormatCells(cells);
    assert l[..|l| - 1] == "| " + Join(cells, CellSeparator) + " |";
  }

  lemma DashRunsPlain(header: seq<string>)
    ensures forall c :: c in DashRuns(header) ==> PlainCell(c)
  {
    var runs := DashRuns(header);
    forall c | c in runs
      ensures PlainCell(c)
    {
      var j :| 0 <= j < |runs| && runs[j] == c;
      assert forall k :: 0 <= k < |c| ==> c[k] == '-';
    }
  }

  /** Every cell of every line is plain. */
  predicate PlainLines(lines: seq<TableLine>)
  {
    forall k :: 0 <= k < |lines| ==>
      (lines[k].Row? ==> forall c :: c in lines[k].cells ==> PlainCell(c))
      && (lines[k].Separator? ==> forall c :: c in lines[k].runs ==> PlainCell(c))
  }

  lemma {:induction false} SplitShowAll(lines: seq<TableLine>)
    requires PlainLines(lines)
    ensures |SplitLines(ShowAll(lines))| == |lines|
    ensures forall k :: 0 <= k < |lines| ==> SplitLines(ShowAll(lines))[k] == Show(lines[k])
  {
    if |lines| > 0 {
      var l := Show(lines[0]);
      var rest := ShowAll(lines[1..]);
      if lines[0].Row? {
        FormatCellsTerminated(lines[0].cells);
      } else {
        FormatCellsTerminated(lines[0].runs);
      }
      FirstNewlineEndsLine(l, rest);
      assert (l + rest)[..|l|] == l;
      assert (l + rest)[|l|..] == rest;
      SplitShowAll(lines[1..]);
    } else {
      assert ShowAll(lines) == "";
    }
  }

  /** Parses each line as a row. */
  function ParseRows(lines: seq<string>): Option<seq<seq<string>>>
  {
    if |lines| == 0 then Some([])
    else match (ParseRow(lines[0]), ParseRows(lines[1..]))
      case (Some(row), Some(rest)) => Some([row] + rest)
      case _ => None
  }

  /**
   Reads a rendered table back: a header row, the separator that header
   calls for, then the data rows. An empty text is the empty table.
   */
  function ParseTable(s: string): Option<seq<seq<string>>>
  {
    var lines := SplitLines(s);
    if |lines| == 0 then Some([])
    else if |lines| == 1 then None
    else match ParseRow(lines[0])
      case None => None
      case Some(header) =>
        if lines[1] != FormatCells(DashRuns(header)) then None
        else match ParseRows(lines[2..])
          case None => None
          case Some(rest) => Some([header] + rest)
  }

  /** Rows that render unambiguously: no empty row, no `|` or line break in a cell. */
  predicate PlainTable(rows: seq<seq<string>>)
  {
    forall k :: 0 <= k < |rows| ==> |rows[k]| >= 1 && forall c :: c in rows[k] ==> PlainCell(c)
  }

  lemma {:induction false} ParseRowsRoundTrip(lines: seq<string>, rows: seq<seq<string>>)
    requires PlainTable(rows)
    requires |lines| == |rows|
    requires forall k :: 0 <= k < |rows| ==> lines[k] == FormatCells(rows[k])
    ensures ParseRows(lines) == Some(rows)
  {
    if |rows| > 0 {
      ParseFormatRoundTrip(rows[0]);
      ParseRowsRoundTrip(lines[1..], rows[1..]);
      assert rows == [rows[0]] + rows[1..];
    }
  }

  lemma TableLinesPlain(rows: seq<seq<string>>)
    requires PlainTable(rows) && |rows| > 0
    ensures PlainLines(TableLines(rows))
  {
    var lines := TableLines(rows);
    DashRunsPlain(rows[0]);
    forall k | 0 <= k < |lines|
      ensures (lines[k].Row? ==> forall c :: c in lines[k].cells ==> PlainCell(c))
           && (lines[k].Separator? ==> forall c :: c in lines[k].runs ==> PlainCell(c))
    {
      if k != 1 {
        var r := if k == 0 then 0 else k - 1;
        assert lines[RowPosition(r)] == Row(rows[r]);
      }
    }
  }

  /** The text lines of a rendered table of plain cells: header, separator, then the other rows. */
  lemma RenderedTextLines(rows: seq<seq<string>>)
    requires PlainTable(rows) && |rows| > 0
    ensures var ls := SplitLines(Render(rows));
            |ls| == |rows| + 1
            && ls[0] == FormatCells(rows[0])
            && ls[1] == FormatCells(DashRuns(rows[0]))
            && forall k :: 0 <= k < |rows| - 1 ==> ls[2..][k] == FormatCells(rows[1..][k])
  {
    var lines := TableLines(rows);
    TableLinesPlain(rows);
    SplitShowAll(lines);
    assert lines[RowPosition(0)] == Row(rows[0]);
    forall k | 0 <= k < |rows| - 1
      ensures SplitLines(Render(rows))[2..][k] == FormatCells(rows[1..][k])
    {
      assert lines[RowPosition(k + 1)] == Row(rows[k + 1]);
    }
  }

  /** A table of plain cells is read back exactly from its rendering. */
  lemma RenderParseRoundTrip(rows: seq<seq<string>>)
    requires PlainTable(rows)
    ensures ParseTable(Render(rows)) == Some(rows)
  {
    if |rows| > 0 {
      RenderedTextLines(rows);
      var ls := SplitLines(Render(rows));
      ParseFormatRoundTrip(rows[0]);
      ParseRowsRoundTrip(ls[2..], rows[1..]);
      assert rows == [rows[0]] + rows[1..];
    } else {
      assert Render(rows) == "";
    }
  }

  lemma {:induction false} BarInJoin(pre: seq<string>, a: string, b: string, post: seq<string>)
    ensures Join(pre + [a + CellSeparator + b] + post, CellSeparator) == Join(pre + [a, b] + post, CellSeparator)
  {
    var merged := pre + [a + CellSeparator + b] + post;
    var split := pre + [a, b] + post;
    if |pre| == 0 {
      assert merged == [a + CellSeparator + b] + post;
      assert split == [a] + ([b] + post);
      assert split[1..] == [b] + post;
      if |post| > 0 {
        assert merged[1..] == post;
        assert ([b] + post)[1..] == post;
        AppendAssoc(a + CellSeparator + b, CellSeparator, Join(post, CellSeparator));
        AppendAssoc(a + CellSeparator, b, CellSeparator + Join(post, CellSeparator));
        AppendAssoc(a, CellSeparator, b + CellSeparator + Join(post, CellSeparator));
      }
    } else {
      assert merged[0] == pre[0] && split[0] == pre[0];
      assert merged[1..] == pre[1..] + [a + CellSeparator + b] + post;
      assert split[1..] == pre[1..] + [a, b] + post;
      BarInJoin(pre[1..], a, b, post);
    }
  }

  /**
   Cells are not escaped: wherever a cell `a | b` stands in a row, the line is
   the same as for the two cells `a` and `b` in its place, so a `|` inside a
   cell reads as a column boundary.
   */
  lemma BarInCellSplitsColumn(pre: seq<string>, a: string, b: string, post: seq<string>)
    ensures FormatCells(pre + [a + " | " + b] + post) == FormatCells(pre + [a, b] + post)
  {
    BarInJoin(pre, a, b, post);
  }

  /** An empty row and a row holding one empty cell print the same line. */
  lemma EmptyRowLooksLikeEmptyCell()
    ensures FormatCells([]) == FormatCells([""])
  {
  }
}

=== FILE: s3_upload.dfy ===
/**
 `upload_file_to_s3` (streamlitCloud_app.py:251-286) without the network: the
 decision whether to create a client and attempt the upload, and the URL it
 returns on success. What boto3's `upload_file` did is an input.
 */
module S3Upload {
  import opened Wrappers
  import opened Text

  /**
   The four settings read from the secrets store. An absent bucket, key or
   secret reads as `""`; an absent region is `None`.
   */
  datatype S3Config = S3Config(bucket: string, accessKey: string, secretKey: string, region: Option<string>)

  /** What `s3_client.upload_file` did: returned, or raised one of the handled errors. */
  datatype TransferOutcome = Transferred | FileMissing | NoCredentials | OtherError(message: string)

  /** The arguments `boto3.client('s3', ...)` was created with. */
  datatype S3Client = S3Client(accessKey: string, secretKey: string, region: string)

  /** One call: the client it created, if any, and the URL it returned, if any. */
  datatype UploadAttempt = UploadAttempt(client: Option<S3Client>, url: Option<string>)

  const DefaultRegion := "us-east-1"

  /** Bucket, access key and secret key are all set (non-empty). */
  predicate Configured(cfg: S3Config)
  {
    cfg.bucket != "" && cfg.accessKey != "" && cfg.secretKey != ""
  }

  /** The virtual-hosted-style URL of an object: the bucket's S3 host, then the object key as the path. */
  function ObjectUrl(bucket: string, objectKey: string): string
  {
    "https://" + bucket + ".s3.amazonaws.com/" + objectKey
  }

  /**
   Upload `filePath` under its basename. Nothing is created or attempted
   unless bucket, key and secret are all non-empty; a URL comes back only
   when the transfer itself succeeded.
   */
  function UploadFile(cfg: S3Config, filePath: string, transfer: TransferOutcome): (a: UploadAttempt)
    ensures a.client.None? <==> !Configured(cfg)
    ensures a.client.Some? ==> a.client.value == S3Client(cfg.accessKey, cfg.secretKey, cfg.region.GetOr(DefaultRegion))
    ensures a.url.Some? <==> Configured(cfg) && transfer == Transferred
    ensures a.url.Some? ==> StartsWith(a.url.value, "https://" + cfg.bucket + ".s3.amazonaws.com/")
    ensures a.url.Some? ==> EndsWith(a.url.value, Basename(filePath))
    ensures a.url.Some? ==> |a.url.value| == |"https://" + cfg.bucket + ".s3.amazonaws.com/"| + |Basename(filePath)|
  {
    if !Configured(cfg) then
      UploadAttempt(None, None)
    else
      var client := S3Client(cfg.accessKey, cfg.secretKey, cfg.region.GetOr(DefaultRegion));
      var objectKey := Basename(filePath);
      match transfer
      case Transferred => UploadAttempt(Some(client), Some(ObjectUrl(cfg.bucket, objectKey)))
      case FileMissing => UploadAttempt(Some(client), None)
      case NoCredentials => UploadAttempt(Some(client), None)
      case OtherError(_) => UploadAttempt(Some(client), None)
  }

  /** The region reaches the client but never the URL. */
  lemma UrlIgnoresRegion(cfg: S3Config, region: Option<string>, filePath: string, transfer: TransferOutcome)
    ensures UploadFile(cfg, filePath, transfer).url == UploadFile(cfg.(region := region), filePath, transfer).url
  {
  }

  /** Python's truth value of what `upload_file_to_s3` returned (`if s3_url:`). */
  predicate HasUrl(url: Option<string>)
  {
    url.Some? && url.value != ""
  }

  /** A returned URL is never the empty string, so Python's `if s3_url:` means "an upload happened". */
  lemma UrlNeverEmpty(cfg: S3Config, filePath: string, transfer: TransferOutcome)
    ensures UploadFile(cfg, filePath, transfer).url != Some("")
    ensures HasUrl(UploadFile(cfg, filePath, transfer).url) <==> Configured(cfg) && transfer == Transferred
  {
  }

  /**
   The object key is the last path segment of the URL, so two files with the
   same basename land on the same object.
   */
  lemma {:induction false} ObjectKeyIsLastSegment(cfg: S3Config, filePath: string)
    requires Configured(cfg)
    ensures UploadFile(cfg, filePath, Transferred).url.Some?
    ensures Basename(UploadFile(cfg, filePath, Transferred).url.value) == Basename(filePath)
  {
    var prefix := "https://" + cfg.bucket + ".s3.amazonaws.com/";
    assert ObjectUrl(cfg.bucket, Basename(filePath)) == prefix + Basename(filePath);
    BasenameAfterSlash(prefix, Basename(filePath));
  }

  /** Same bucket and same basename: the same object, whatever the directories. */
  lemma SameBasenameSameObject(cfg: S3Config, p1: string, p2: string)
    requires Basename(p1) == Basename(p2)
    ensures UploadFile(cfg, p1, Transferred).url == UploadFile(cfg, p2, Transferred).url
  {
  }
}

=== FILE: text.dfy ===
/**
 Python string operations the Markdown assemblers rely on, written out over
 `seq<char>`: `"".join`, `sep.join`, `"-" * n`, `str(int)`, `startswith`,
 `endswith`, `os.path.basename`, `os.path.join`, and `sorted` on file names.
 */
module Text {

  /** The fragments of a document, each shown, glued together in order with nothing between them. */
  function ConcatMap<T>(xs: seq<T>, show: T -> string): string
  {
    if |xs| == 0 then "" else show(xs[0]) + ConcatMap(xs[1..], show)
  }

  lemma {:induction false} ConcatMapAppend<T>(a: seq<T>, b: seq<T>, show: T -> string)
    ensures ConcatMap(a + b, show) == ConcatMap(a, show) + ConcatMap(b, show)
  {
    if |a| == 0 {
      assert a + b == b;
    } else {
      assert (a + b)[1..] == a[1..] + b;
      ConcatMapAppend(a[1..], b, show);
    }
  }

  lemma ConcatMapSnoc<T>(a: seq<T>, x: T, show: T -> string)
    ensures ConcatMap(a + [x], show) == ConcatMap(a, show) + show(x)
  {
    ConcatMapAppend(a, [x], show);
  }

  lemma AppendAssoc<T>(a: seq<T>, b: seq<T>, c: seq<T>)
    ensures (a + b) + c == a + (b + c)
  {
  }

  /** An element of the middle part of a concatenation, found by its offset past the first part. */
  lemma IndexInMiddle<T>(a: seq<T>, b: seq<T>, c: seq<T>, k: nat)
    requires k < |b|
    ensures |a| + k < |a + b + c| && (a + b + c)[|a| + k] == b[k]
  {
  }

  /** The parts glued together with `sep` between neighbours, as Python's `str.join`. */
  function Join(parts: seq<string>, sep: string): string
  {
    if |parts| == 0 then ""
    else if |parts| == 1 then parts[0]
    else parts[0] + sep + Join(parts[1..], sep)
  }

  /** A run of `n` dashes. */
  function Dashes(n: nat): (r: string)
    ensures |r| == n
    ensures forall k :: 0 <= k < |r| ==> r[k] == '-'
  {
    if n == 0 then "" else "-" + Dashes(n - 1)
  }

  predicate StartsWith(s: string, prefix: string)
  {
    |prefix| <= |s| && s[..|prefix|] == prefix
  }

  predicate EndsWith(s: string, suffix: string)
  {
    |suffix| <= |s| && s[|s| - |suffix|..] == suffix
  }

  predicate IsDigit(c: char)
  {
    '0' <= c <= '9'
  }

  predicate AllDigits(s: string)
  {
    forall k :: 0 <= k < |s| ==> IsDigit(s[k])
  }

  function DigitChar(d: nat): (c: char)
    requires d < 10
    ensures IsDigit(c)
    ensures (c as int) - ('0' as int) == d
  {
    (('0' as int) + d) as char
  }

  /** `str(n)` for a non-negative Python int: decimal, no leading zero. */
  function NatToString(n: nat): (s: string)
    ensures |s| >= 1
    ensures AllDigits(s)
    ensures s[0] == '0' ==> n == 0
  {
    if n < 10 then [DigitChar(n)] else NatToString(n / 10) + [DigitChar(n % 10)]
  }

  /** The value of a run of decimal digits: the inverse of `NatToString`. */
  function DigitsValue(s: string): nat
    requires AllDigits(s)
  {
    if |s| == 0 then 0
    else DigitsValue(s[..|s| - 1]) * 10 + ((s[|s| - 1] as int) - ('0' as int))
  }

  lemma {:induction false} NatToStringRoundTrip(n: nat)
    ensures DigitsValue(NatToString(n)) == n
  {
    if n >= 10 {
      var s := NatToString(n);
      assert s[..|s| - 1] == NatToString(n / 10);
      NatToStringRoundTrip(n / 10);
    }
  }

  /** Distinct page, image and table numbers are printed differently. */
  lemma NatToStringInjective(m: nat, n: nat)
    ensures NatToString(m) == NatToString(n) ==> m == n
  {
    NatToStringRoundTrip(m);
    NatToStringRoundTrip(n);
  }

  /** `str(i)` for any Python int: a minus sign before the digits when negative. */
  function IntToString(i: int): (s: string)
    ensures |s| >= 1
    ensures s[0] == '-' <==> i < 0
    ensures IntLiteral(s)
  {
    if i < 0 then "-" + NatToString(-i) else NatToString(i)
  }

  /** Digits, optionally after a minus sign: what `str` prints for an int. */
  predicate IntLiteral(s: string)
  {
    |s| >= 1 && (if s[0] == '-' then AllDigits(s[1..]) else AllDigits(s))
  }

  /** Reads back what `IntToString` printed. */
  function ParseInt(s: string): int
    requires IntLiteral(s)
  {
    if s[0] == '-' then 0 - (DigitsValue(s[1..]) as int) else DigitsValue(s)
  }

  lemma IntToStringRoundTrip(i: int)
    ensures ParseInt(IntToString(i)) == i
  {
    if i < 0 {
      assert IntToString(i)[1..] == NatToString(-i);
      NatToStringRoundTrip(-i);
    } else {
      NatToStringRoundTrip(i);
    }
  }

  /** `os.path.basename(p)`: everything after the last `/`. */
  function Basename(p: string): (r: string)
    ensures '/' !in r
    ensures |r| <= |p| && p[|p| - |r|..] == r
    ensures |r| == |p| || p[|p| - |r| - 1] == '/'
  {
    if |p| == 0 || p[|p| - 1] == '/' then ""
    else Basename(p[..|p| - 1]) + [p[|p| - 1]]
  }

  /** A file name after a directory that ends in `/` is that path's basename. */
  lemma {:induction false} BasenameAfterSlash(dir: string, name: string)
    requires |dir| > 0 && dir[|dir| - 1] == '/'
    requires '/' !in name
    ensures Basename(dir + name) == name
  {
    if |name| > 0 {
      var p := dir + name;
      assert p[..|p| - 1] == dir + name[..|name| - 1];
      BasenameAfterSlash(dir, name[..|name| - 1]);
      assert name == name[..|name| - 1] + [name[|name| - 1]];
    } else {
      assert dir + name == dir;
    }
  }

  /** `os.path.join(a, b)` with two arguments, as POSIX `posixpath.join` does it. */
  function PathJoin(a: string, b: string): (r: string)
    ensures EndsWith(r, b)
    ensures |b| > 0 && b[0] == '/' ==> r == b
    ensures !(|b| > 0 && b[0] == '/') ==> StartsWith(r, a)
  {
    if |b| > 0 && b[0] == '/' then b
    else if |a| == 0 || a[|a| - 1] == '/' then a + b
    else a + "/" + b
  }

  /** Joining a plain file name onto a directory keeps that name as the basename. */
  lemma BasenameOfJoin(dir: string, name: string)
    requires |name| > 0 && '/' !in name
    ensures Basename(PathJoin(dir, name)) == name
  {
    if |dir| == 0 {
      assert PathJoin(dir, name) == name;
      var b := Basename(name);
      assert |b| == |name|;
    } else if dir[|dir| - 1] == '/' {
      BasenameAfterSlash(dir, name);
    } else {
      assert PathJoin(dir, name) == (dir + "/") + name;
      BasenameAfterSlash(dir + "/", name);
    }
  }

  /** Python's `<=` on `str`: code point by code point, a prefix first. */
  predicate LexLessEq(a: string, b: string)
  {
    |a| == 0 || (|b| > 0 && (a[0] < b[0] || (a[0] == b[0] && LexLessEq(a[1..], b[1..]))))
  }

  lemma {:induction false} LexTotal(a: string, b: string)
    ensures LexLessEq(a, b) || LexLessEq(b, a)
  {
    if |a| > 0 && |b| > 0 && a[0] == b[0] {
      LexTotal(a[1..], b[1..]);
    }
  }

  lemma {:induction false} LexTrans(a: string, b: string, c: string)
    requires LexLessEq(a, b) && LexLessEq(b, c)
    ensures LexLessEq(a, c)
  {
    if |a| > 0 && a[0] == b[0] && b[0] == c[0] {
      LexTrans(a[1..], b[1..], c[1..]);
    }
  }

  /** Adjacent entries are in ascending order of their names. */
  predicate SortedBy<T>(xs: seq<T>, name: T -> string)
  {
    forall k :: 0 <= k < |xs| - 1 ==> LexLessEq(name(xs[k]), name(xs[k + 1]))
  }

  /** In a sorted sequence the first entry's name is the least. */
  lemma {:induction false} HeadIsLeast<T>(xs: seq<T>, name: T -> string, k: nat)
    requires SortedBy(xs, name)
    requires 0 < k < |xs|
    ensures LexLessEq(name(xs[0]), name(xs[k]))
  {
    if k > 1 {
      HeadIsLeast(xs, name, k - 1);
      LexTrans(name(xs[0]), name(xs[k - 1]), name(xs[k]));
    }
  }

  function InsertBy<T(==)>(x: T, xs: seq<T>, name: T -> string): (r: seq<T>)
    requires SortedBy(xs, name)
    ensures SortedBy(r, name)
    ensures multiset(r) == multiset(xs) + multiset{x}
    ensures |r| == |xs| + 1
    ensures r[0] == x || (|xs| > 0 && r[0] == xs[0])
  {
    if |xs| == 0 then [x]
    else if LexLessEq(name(x), name(xs[0])) then [x] + xs
    else
      LexTotal(name(x), name(xs[0]));
      assert xs == [xs[0]] + xs[1..];
      [xs[0]] + InsertBy(x, xs[1..], name)
  }

  /** `sorted(entries)` by name, as an insertion sort. */
  function SortBy<T(==)>(xs: seq<T>, name: T -> string): (r: seq<T>)
    ensures SortedBy(r, name)
    ensures multiset(r) == multiset(xs)
    ensures |r| == |xs|
  {
    if |xs| == 0 then []
    else
      assert xs == [xs[0]] + xs[1..];
      InsertBy(xs[0], SortBy(xs[1..], name), name)
  }
}

=== FILE: web_scrape.dfy ===
/**
 `open_source_extract_website` (streamlitCloud_app.py:293-363): the Markdown
 built from a fetched page. What BeautifulSoup found is an input (paragraph
 texts, `img` tags, `href` values, table cells); `urllib.parse.urljoin` and
 the pandas rendering of a table are function parameters.
 */
module WebScrape {
  import opened Wrappers
  import opened Text

  /** An `img` tag: its `src` attribute, present or not. */
  datatype ImgTag = ImgTag(src: Option<string>)

  /**
   The fetched page: the HTTP status, the stripped text of every `p`, the
   `img` tags, the `href` of every `a` that has one, and for every `table` the
   stripped texts of the `td`/`th` cells of each `tr`.
   */
  datatype Page = Page(
    status: int,
    paragraphs: seq<string>,
    images: seq<ImgTag>,
    hrefs: seq<string>,
    tables: seq<seq<seq<string>>>)

  /** An address that starts with the `http:` or `https:` scheme. */
  predicate Absolute(u: string)
  {
    StartsWith(u, "http:") || StartsWith(u, "https:")
  }

  /**
   An image source: a protocol-relative `//host/...` gets `https:`, an
   absolute URL is kept, anything else is resolved against the page URL.
   */
  function NormalizeSrc(pageUrl: string, src: string, urljoin: (string, string) -> string): (r: string)
    ensures Absolute(src) ==> r == src
    ensures StartsWith(src, "//") ==> r == "https:" + src && Absolute(r)
    ensures !Absolute(src) && !StartsWith(src, "//") ==> r == urljoin(pageUrl, src)
  {
    if StartsWith(src, "//") then
      assert src[0] == src[..2][0] == '/';
      assert ("https:" + src)[..6] == "https:";
      "https:" + src
    else if Absolute(src) then src
    else urljoin(pageUrl, src)
  }

  /** A link target: absolute URLs are kept, everything else, `//host/...` included, is resolved. */
  function NormalizeHref(pageUrl: string, href: string, urljoin: (string, string) -> string): (r: string)
    ensures Absolute(href) ==> r == href
    ensures !Absolute(href) ==> r == urljoin(pageUrl, href)
  {
    if Absolute(href) then href else urljoin(pageUrl, href)
  }

  /** A `//` prefix is never absolute, so the first branch of `NormalizeSrc` is not shadowed. */
  lemma ProtocolRelativeNotAbsolute(src: string)
    requires StartsWith(src, "//")
    ensures !Absolute(src)
  {
    assert src[0] == '/';
  }

  /**
   Normalising twice changes nothing, and the result is absolute, whenever
   the page's `urljoin` gives an absolute URL for this source.
   */
  lemma NormalizeSrcIdempotent(pageUrl: string, src: string, urljoin: (string, string) -> string)
    requires Absolute(urljoin(pageUrl, src))
    ensures Absolute(NormalizeSrc(pageUrl, src, urljoin))
    ensures NormalizeSrc(pageUrl, NormalizeSrc(pageUrl, src, urljoin), urljoin) == NormalizeSrc(pageUrl, src, urljoin)
  {
    var r := NormalizeSrc(pageUrl, src, urljoin);
    assert Absolute(r);
    if StartsWith(r, "//") {
      ProtocolRelativeNotAbsolute(r);
    }
  }

  lemma NormalizeHrefIdempotent(pageUrl: string, href: string, urljoin: (string, string) -> string)
    requires Absolute(urljoin(pageUrl, href))
    ensures Absolute(NormalizeHref(pageUrl, href, urljoin))
    ensures NormalizeHref(pageUrl, NormalizeHref(pageUrl, href, urljoin), urljoin) == NormalizeHref(pageUrl, href, urljoin)
  {
  }

  /**
   A protocol-relative address is pinned to `https:` as an image source but
   handed to `urljoin`, which takes the page's scheme, as a link target.
   */
  lemma ProtocolRelativeImageVersusLink(pageUrl: string, address: string, urljoin: (string, string) -> string)
    requires StartsWith(address, "//")
    ensures NormalizeSrc(pageUrl, address, urljoin) == "https:" + address
    ensures NormalizeHref(pageUrl, address, urljoin) == urljoin(pageUrl, address)
  {
    ProtocolRelativeNotAbsolute(address);
  }

  /** What one `img` tag contributes: its normalised source, or nothing without `src`. */
  function TagUrl(pageUrl: string, tag: ImgTag, urljoin: (string, string) -> string): seq<string>
  {
    if tag.src.Some? then [NormalizeSrc(pageUrl, tag.src.value, urljoin)] else []
  }

  /** The sources of the `img` tags that have one, normalised, in document order. */
  function ImageUrls(pageUrl: string, images: seq<ImgTag>, urljoin: (string, string) -> string): (r: seq<string>)
    ensures |r| <= |images|
  {
    if |images| == 0 then []
    else TagUrl(pageUrl, images[0], urljoin) + ImageUrls(pageUrl, images[1..], urljoin)
  }

  lemma {:induction false} ImageUrlsAppend(pageUrl: string, a: seq<ImgTag>, b: seq<ImgTag>, urljoin: (string, string) -> string)
    ensures ImageUrls(pageUrl, a + b, urljoin) == ImageUrls(pageUrl, a, urljoin) + ImageUrls(pageUrl, b, urljoin)
  {
    if |a| == 0 {
      assert a + b == b;
    } else {
      assert (a + b)[1..] == a[1..] + b;
      ImageUrlsAppend(pageUrl, a[1..], b, urljoin);
    }
  }

  /** An `img` without `src` is dropped without a trace. */
  lemma ImageWithoutSrcDropped(pageUrl: string, a: seq<ImgTag>, b: seq<ImgTag>, urljoin: (string, string) -> string)
    ensures ImageUrls(pageUrl, a + [ImgTag(None)] + b, urljoin) == ImageUrls(pageUrl, a + b, urljoin)
  {
    var none := [ImgTag(None)];
    assert ImageUrls(pageUrl, none, urljoin) == [] by {
      assert none[1..] == [];
    }
    ImageUrlsAppend(pageUrl, a, none, urljoin);
    assert ImageUrls(pageUrl, a + none, urljoin) == ImageUrls(pageUrl, a, urljoin);
    ImageUrlsAppend(pageUrl, a + none, b, urljoin);
    ImageUrlsAppend(pageUrl, a, b, urljoin);
  }

  /** An `img` with `src` is kept, right after the sources of the tags before it. */
  lemma ImageUrlAt(pageUrl: string, images: seq<ImgTag>, urljoin: (string, string) -> string, i: nat)
    requires i < |images| && images[i].src.Some?
    ensures |ImageUrls(pageUrl, images[..i], urljoin)| < |ImageUrls(pageUrl, images, urljoin)|
    ensures ImageUrls(pageUrl, images, urljoin)[|ImageUrls(pageUrl, images[..i], urljoin)|]
         == NormalizeSrc(pageUrl, images[i].src.value, urljoin)
  {
    assert images == images[..i] + [images[i]] + images[i + 1..];
    ImageUrlsAppend(pageUrl, images[..i] + [images[i]], images[i + 1..], urljoin);
    ImageUrlsAppend(pageUrl, images[..i], [images[i]], urljoin);
    assert ImageUrls(pageUrl, [images[i]], urljoin) == [NormalizeSrc(pageUrl, images[i].src.value, urljoin)];
  }

  /** A source that is neither absolute nor protocol-relative, for which `urljoin` gives an absolute URL. */
  predicate SrcResolves(pageUrl: string, src: string, urljoin: (string, string) -> string)
  {
    Absolute(src) || StartsWith(src, "//") || Absolute(urljoin(pageUrl, src))
  }

  /**
   When every relative source of the page resolves to an absolute URL, every
   image URL is absolute. (`urljoin` leaves schemes such as `data:` alone, so
   the premise is stated per source.)
   */
  lemma {:induction false} ImageUrlsAbsolute(pageUrl: string, images: seq<ImgTag>, urljoin: (string, string) -> string)
    requires forall k :: 0 <= k < |images| && images[k].src.Some? ==> SrcResolves(pageUrl, images[k].src.value, urljoin)
    ensures forall k :: 0 <= k < |ImageUrls(pageUrl, images, urljoin)| ==> Absolute(ImageUrls(pageUrl, images, urljoin)[k])
  {
    if |images| > 0 {
      assert forall k :: 0 <= k < |images[1..]| ==> images[1..][k] == images[k + 1];
      ImageUrlsAbsolute(pageUrl, images[1..], urljoin);
      if images[0].src.Some? {
        assert SrcResolves(pageUrl, images[0].src.value, urljoin);
      }
    }
  }

  /** Every `href`, normalised, in document order. */
  function LinkUrls(pageUrl: string, hrefs: seq<string>, urljoin: (string, string) -> string): seq<string>
  {
    seq(|hrefs|, k requires 0 <= k < |hrefs| => NormalizeHref(pageUrl, hrefs[k], urljoin))
  }

  /**
   When every relative link target resolves to an absolute URL, every link is
   absolute. (`urljoin` leaves `mailto:` and `javascript:` targets alone, so
   the premise is stated per target.)
   */
  lemma LinkUrlsAbsolute(pageUrl: string, hrefs: seq<string>, urljoin: (string, string) -> string)
    requires forall k :: 0 <= k < |hrefs| && !Absolute(hrefs[k]) ==> Absolute(urljoin(pageUrl, hrefs[k]))
    ensures forall k :: 0 <= k < |hrefs| ==> Absolute(LinkUrls(pageUrl, hrefs, urljoin)[k])
  {
  }

  /** The tables with at least one row, in document order; the others are skipped. */
  function KeptTables(tables: seq<seq<seq<string>>>): (r: seq<seq<seq<string>>>)
    ensures |r| <= |tables|
    ensures forall k :: 0 <= k < |r| ==> |r[k]| > 0
  {
    if |tables| == 0 then []
    else (if |tables[0]| > 0 then [tables[0]] else []) + KeptTables(tables[1..])
  }

  lemma {:induction false} KeptTablesAppend(a: seq<seq<seq<string>>>, b: seq<seq<seq<string>>>)
    ensures KeptTables(a + b) == KeptTables(a) + KeptTables(b)
  {
    if |a| == 0 {
      assert a + b == b;
    } else {
      assert (a + b)[1..] == a[1..] + b;
      KeptTablesAppend(a[1..], b);
    }
  }

  /** A table with rows is kept, right after the tables with rows that come before it. */
  lemma KeptTableAt(tables: seq<seq<seq<string>>>, i: nat)
    requires i < |tables| && |tables[i]| > 0
    ensures |KeptTables(tables[..i])| < |KeptTables(tables)|
    ensures KeptTables(tables)[|KeptTables(tables[..i])|] == tables[i]
  {
    assert tables == tables[..i] + [tables[i]] + tables[i + 1..];
    KeptTablesAppend(tables[..i] + [tables[i]], tables[i + 1..]);
    KeptTablesAppend(tables[..i], [tables[i]]);
    assert KeptTables([tables[i]]) == [tables[i]];
  }

  /** A table without rows neither appears nor takes a number. */
  lemma EmptyTableSkipped(a: seq<seq<seq<string>>>, b: seq<seq<seq<string>>>)
    ensures KeptTables(a + [[]] + b) == KeptTables(a + b)
  {
    KeptTablesAppend(a + [[]], b);
    KeptTablesAppend(a, [[]]);
    KeptTablesAppend(a, b);
    assert KeptTables([[]]) == [];
  }

  /** One piece of the document, in the order the function appends them. */
  datatype WebPiece =
    | Heading(url: string)
    | TextContent(text: string)
    | ImagesHeading
    | ImageRef(url: string)
    | LinksHeading
    | LinkItem(url: string)
    | LinksEnd
    | TablesHeading
    | TableBlock(index: nat, markdown: string)

  function ShowWebPiece(p: WebPiece): string
  {
    match p
    case Heading(url) => "# Extracted Content from " + url + "\n\n"
    case TextContent(text) => "## Text Content\n\n" + text + "\n\n"
    case ImagesHeading => "## Images\n\n"
    case ImageRef(url) => "![Image](" + url + ")\n\n"
    case LinksHeading => "## Links\n\n"
    case LinkItem(url) => "- [" + url + "](" + url + ")\n"
    case LinksEnd => "\n"
    case TablesHeading => "## Tables\n\n"
    case TableBlock(index, markdown) => "### Table " + NatToString(index) + "\n\n" + markdown + "\n\n"
  }

  /**
   The kept tables numbered from 1. `toMarkdown` stands for building the
   DataFrame from the cell texts and rendering it with pandas.
   */
  function TableBlocks(tables: seq<seq<seq<string>>>, toMarkdown: seq<seq<string>> -> string): seq<WebPiece>
  {
    seq(|tables|, k requires 0 <= k < |tables| => TableBlock(k + 1, toMarkdown(tables[k])))
  }

  /** Heading, text, images, links and tables, each part in document order. */
  function WebPieces(url: string, page: Page, urljoin: (string, string) -> string, toMarkdown: seq<seq<string>> -> string): (r: seq<WebPiece>)
    ensures |r| == 6 + |ImageUrls(url, page.images, urljoin)| + |page.hrefs| + |KeptTables(page.tables)|
  {
    var images := ImageUrls(url, page.images, urljoin);
    var links := LinkUrls(url, page.hrefs, urljoin);
    [Heading(url), TextContent(Join(page.paragraphs, "\n")), ImagesHeading]
    + seq(|images|, k requires 0 <= k < |images| => ImageRef(images[k]))
    + [LinksHeading]
    + seq(|links|, k requires 0 <= k < |links| => LinkItem(links[k]))
    + [LinksEnd, TablesHeading]
    + TableBlocks(KeptTables(page.tables), toMarkdown)
  }

  /**
   The document opens with the heading for the page URL, then the paragraph
   texts joined by line breaks, then the Images heading, and image URL `k`
   is the `k`-th entry after it.
   */
  lemma TextAndImageAt(url: string, page: Page, urljoin: (string, string) -> string, toMarkdown: seq<seq<string>> -> string, k: nat)
    requires k < |ImageUrls(url, page.images, urljoin)|
    ensures var pieces := WebPieces(url, page, urljoin, toMarkdown);
            3 + k < |pieces|
            && pieces[0] == Heading(url)
            && pieces[1] == TextContent(Join(page.paragraphs, "\n"))
            && pieces[2] == ImagesHeading
            && pieces[3 + k] == ImageRef(ImageUrls(url, page.images, urljoin)[k])
  {
  }

  /**
   Where the page's parts land in the document: the Links heading after the
   heading, the text, the Images heading and one entry per image URL; link `k`
   the `k`-th entry after it, holding the normalised `href`.
   */
  lemma LinkAt(url: string, page: Page, urljoin: (string, string) -> string, toMarkdown: seq<seq<string>> -> string, k: nat)
    requires k < |page.hrefs|
    ensures var pieces := WebPieces(url, page, urljoin, toMarkdown);
            var links := 4 + |ImageUrls(url, page.images, urljoin)|;
            links + k < |pieces| && pieces[links - 1] == LinksHeading
            && pieces[links + k] == LinkItem(NormalizeHref(url, page.hrefs[k], urljoin))
  {
    var images := ImageUrls(url, page.images, urljoin);
    var links := LinkUrls(url, page.hrefs, urljoin);
    var refs := seq(|images|, j requires 0 <= j < |images| => ImageRef(images[j]));
    var items := seq(|links|, j requires 0 <= j < |links| => LinkItem(links[j]));
    var head := [Heading(url), TextContent(Join(page.paragraphs, "\n")), ImagesHeading] + refs + [LinksHeading];
    assert WebPieces(url, page, urljoin, toMarkdown)
        == head + items + [LinksEnd, TablesHeading] + TableBlocks(KeptTables(page.tables), toMarkdown);
    assert |head| == 4 + |images|;
  }

  /**
   A table with rows is written after the Tables heading, numbered one more
   than the number of tables with rows before it: empty tables take no number.
   */
  lemma TableAt(url: string, page: Page, urljoin: (string, string) -> string, toMarkdown: seq<seq<string>> -> string, i: nat)
    requires i < |page.tables| && |page.tables[i]| > 0
    ensures var pieces := WebPieces(url, page, urljoin, toMarkdown);
            var n := |KeptTables(page.tables[..i])|;
            var tables := 6 + |ImageUrls(url, page.images, urljoin)| + |page.hrefs|;
            tables + n < |pieces| && pieces[tables - 1] == TablesHeading
            && pieces[tables + n] == TableBlock(n + 1, toMarkdown(page.tables[i]))
  {
    var images := ImageUrls(url, page.images, urljoin);
    var links := LinkUrls(url, page.hrefs, urljoin);
    var refs := seq(|images|, j requires 0 <= j < |images| => ImageRef(images[j]));
    var items := seq(|links|, j requires 0 <= j < |links| => LinkItem(links[j]));
    var head := [Heading(url), TextContent(Join(page.paragraphs, "\n")), ImagesHeading] + refs + [LinksHeading] + items + [LinksEnd, TablesHeading];
    var kept := KeptTables(page.tables);
    assert WebPieces(url, page, urljoin, toMarkdown) == head + TableBlocks(kept, toMarkdown);
    assert |head| == 6 + |images| + |page.hrefs|;
    KeptTableAt(page.tables, i);
  }

  /**
   The document, or `None` where `raise_for_status` raises (a 4xx or 5xx
   status). Every part is present even when the page has nothing for it.
   */
  function OpenSourceExtractWebsite(url: string, page: Page, urljoin: (string, string) -> string, toMarkdown: seq<seq<string>> -> string): (r: Option<string>)
    ensures r.None? <==> 400 <= page.status < 600
    ensures r.Some? ==> StartsWith(r.value, "# Extracted Content from " + url + "\n\n")
  {
    if 400 <= page.status < 600 then None
    else
      var pieces := WebPieces(url, page, urljoin, toMarkdown);
      var md := ConcatMap(pieces, ShowWebPiece);
      assert md == ShowWebPiece(pieces[0]) + ConcatMap(pieces[1..], ShowWebPiece);
      Some(md)
  }

  /** A page with nothing in it still gets every heading, in order, and nothing else. */
  lemma EmptyPageSkeleton(url: string, status: int, urljoin: (string, string) -> string, toMarkdown: seq<seq<string>> -> string)
    ensures WebPieces(url, Page(status, [], [], [], []), urljoin, toMarkdown)
         == [Heading(url), TextContent(""), ImagesHeading, LinksHeading, LinksEnd, TablesHeading]
  {
    assert ImageUrls(url, [], urljoin) == [];
    assert KeptTables([]) == [];
  }
}

=== FILE: wrappers.dfy ===
/** The optional-value datatype shared by every module: a Python value that may be `None`. */
module Wrappers {

  /** `Some(v)` for a present value, `None` for Python's `None` or an absent key. */
  datatype Option<+T> = None | Some(value: T) {

    /** The value, or `default` when absent: the shape of `d.get(key, default)`. */
    function GetOr(default: T): T
    {
      match this
      case Some(v) => v
      case None => default
    }
  }
}
